=== FILE: README.md ===
# Knot Resolver daemon control plane, in Dafny

This project models the control plane of the Knot Resolver daemon (`kresd`) and proves
properties of the model. The model covers:

- **the ordered module list** of the engine: `module_find`, `engine_register` with its
  `<` / `>` precedence splice, `engine_unregister`, the built-in pipeline `init_resolver`
  installs, and the names `register_properties` publishes;
- **marshalling between Lua values and JSON trees**: `l_pack_elem` / `l_tojson`,
  `l_unpack_json`, and the `l_trampoline` that wraps a module's property callbacks;
- **the `map()` broadcast** (`l_map`): the length-prefixed request frame sent to every
  sibling worker, and the reply table gathered from the local result and the siblings;
- **`option()`** (`l_option`): reading, setting and clearing one of the seventeen
  `QUERY_*` flags of lib/rplan.h in the resolver's options word;
- **the RTT-table sweep** (`update_state`), over an abstract fixed-size LRU table whose
  contract is the one tests/test_lru.c relies on;
- **the resolution plan** of lib/rplan.h: `kr_rplan_init`, `kr_rplan_empty`,
  `kr_rplan_push` and `kr_rplan_pop`, as their doc comments describe them;
- **the front end in daemon/main.c**: `set_addr` and the port cast, the `-f` and `-k`
  options, and the console (`tty_read`, `tty_accept`): newline stripping, the answer's
  rendering, and which stream each part goes to.

Everything is pure functions over immutable datatypes. The one exception is the sweep,
a `method` with a loop. A Lua table is a sequence of `(key, value)` entries in traversal
order. JSON is a tree datatype. The module list is a `seq<string>`. The options word is
the set of its 1-bit positions.

The Lua interpreter, the module loaders, `malloc` and the system calls are not executed
by the model. Their outcomes are parameters:

- the value a command leaves on the Lua stack;
- the loader's verdict;
- whether an allocation succeeded;
- how many bytes each `write` / `read` transferred;
- the working directory `realpath(".")` gives;
- the eviction threshold `KR_NS_LONG`;
- the hash function of the LRU table.

Files:

| file | module | contents |
|---|---|---|
| wrappers.dfy | Wrappers | `Option`, `Result` |
| text.dfy | Text | bytes, `atoi`, decimal rendering, `strlen`/`strchr`, `strcasecmp` |
| lua.dfy | Lua | Lua values, raw table assignment, `lua_rawlen`, conversions |
| json.dfy | Json | the JSON tree |
| marshal.dfy | Marshal | pack, unpack, trampoline, round trips |
| registry.dfy | Registry | the module list |
| broadcast.dfy | Broadcast | `map()` |
| query_flags.dfy | QueryFlags | the `QUERY_*` flags and their names |
| options.dfy | Options | `option()` |
| lru.dfy | Lru | the abstract LRU table |
| maintenance.dfy | Maintenance | `update_state` |
| rplan.dfy | Rplan | the resolution plan |
| control.dfy | Control | daemon/main.c front end |

Two details of the code that the model follows closely:

- **Precedence tokens.** The precedence is compared, case-insensitively, against the
  tokens `<` (insert at the reference's slot) and `>` (insert after the reference),
  daemon/engine.c:816-826. Any other token leaves the module at the end of the list.
- **Module deletion.** `engine_unregister` deletes with `array_del`. lib/generic/array.h
  is not part of this model, so the order of the remaining modules after a delete is not
  asserted. `Registry.Unregister` is written as an order-preserving delete, but its
  contract states only membership and length.

## Model

| member | source | states |
|---|---|---|
| Registry.Find | daemon/engine.c:768-779 | `module_find` returns the index of the first module with that name: all earlier names differ; it returns the list length exactly when the name is absent |
| Registry.Unregister | daemon/engine.c:842-853 | an absent name gives ENOENT and the list is unchanged; a present name succeeds, the list shrinks by one, and exactly one copy of that name leaves it (multiset difference) |
| Registry.Register | daemon/engine.c:781-832 | whatever happens, a namesake is unloaded first; on any error the list is the list after that unload, and on success it is that list plus the new name, as a multiset |
| Registry.RegisterErrors | daemon/engine.c:786-815 | EIDRM exactly when a precedence and a reference are given and the reference is missing after the unload; success exactly when the reference check and the loader both pass; a load error carries the loader's code |
| Registry.RegisterPlacement | daemon/engine.c:788-832 | a successful registration inserts the name at its intended slot of the remaining list: right after the reference for `>`, at the reference's old index for `<`, at the end otherwise; all other modules keep their order |
| Registry.EmplacementAt | daemon/engine.c:816-826 | the emplacement for `<` is the reference's index, for `>` the slot after it, for any other token the end; case folding never changes this for `<` and `>` |
| Registry.SplicePermutes | daemon/engine.c:827-831 | the `memmove` splice only permutes the list |
| Registry.RegisterKeepsNamesUnique | daemon/engine.c:786-832 | registration keeps names unique; the new name is present exactly once on success and absent on failure |
| Registry.RegisterRelativeToItself | daemon/engine.c:786-795 | naming the module itself as the reference fails with EIDRM, and the old module of that name is gone |
| Registry.BuiltinPipeline | daemon/engine.c:477-481 | the built-in layers are installed in the order iterate, validate, rrcache, pktcache |
| Registry.AppendAbsent | daemon/engine.c:817-839 | without a precedence, a module whose name is not yet registered is appended at the end |
| Registry.RegisterThenUnregister | daemon/engine.c:781-853 | after a successful registration, unregistering the name succeeds and leaves the modules that remained after the namesake was unloaded |
| Registry.BeforeThenUnregister | daemon/engine.c:781-853 | registering A, then B before A, gives [B, A]; unregistering A then leaves [B] |
| Registry.Published | daemon/engine.c:744-755 | property names are published only for a module with a config entry point or a property table, and `config` comes first when present |
| Registry.PropsEnd | daemon/engine.c:750 | the property table ends at the first entry without a name |
| Registry.PropNamesExactly | daemon/engine.c:750-754 | a property is published exactly when it has a callback and precedes the terminator |
| Text.AtoiOfDecimal | daemon/main.c:147 | `atoi` reads every decimally written integer back |
| Text.EqualsIgnoreCaseSymbol | daemon/engine.c:820-826 | `strcasecmp` against a one-symbol token without letters is plain equality |
| Text.CString | daemon/engine.c:354-355 | the C string of a buffer is its bytes before the first NUL, `strlen` of them |
| Lua.SetGet | daemon/engine.c:277-282 | raw assignment reads back, leaves every other key's value alone, and keeps the table free of duplicate keys and nil values |
| Lua.RawLenOfSequence | daemon/engine.c:281 | `lua_rawlen` of a table with keys 1..n is n |
| Lua.AppendToSequence | daemon/engine.c:281 | `lua_rawseti(t, rawlen+1, v)` of a non-nil value extends a sequence by the next index |
| Lua.ToString | daemon/engine.c:316 | `lua_tostring` gives text exactly for strings and numbers |
| Marshal.Pack | daemon/engine.c:287-323 | strings, numbers and booleans keep their value; exactly nil and non-data values become null; an empty table becomes `{}`; a non-empty table becomes an array exactly when its first traversed key is a number, otherwise an object, with one child per entry |
| Marshal.PackElementsAt | daemon/engine.c:299-319 | an array lists each entry's packed value in traversal order, keys dropped |
| Marshal.PackMembersAt | daemon/engine.c:299-319 | an object lists each entry under its key's text, in traversal order |
| Marshal.Unpack | daemon/engine.c:255-284 | strings, numbers and booleans keep their value; every other tree becomes a table, a top-level null the empty table; no nil is produced |
| Marshal.UnpackArray | daemon/engine.c:264-283 | an array becomes the table {v1, v2, …} of its non-null children, in order, with no gaps |
| Marshal.UnpackObject | daemon/engine.c:264-283 | an object becomes a string-keyed table where each name holds the last non-null member of that name; null members are skipped |
| Marshal.UnpackPack | daemon/engine.c:255-323 | a sequence or string-keyed record of data values survives pack then unpack |
| Marshal.PackUnpack | daemon/engine.c:255-323 | a null-free tree with distinct member names and no empty array survives unpack then pack |
| Marshal.OkCountReply | daemon/engine.c:429-436 | the reply `{"ok": true, "count": 3}` reads back as those two fields |
| Marshal.PackAt | daemon/engine.c:287-323 | `l_pack_elem` at an absolute stack slot: a non-table packs as `Pack`; a table becomes an array or an object, judged by the slot above it, with elements packed from two slots above |
| Marshal.PackAtTop | daemon/engine.c:296-319 | with the value on top of the stack, `l_pack_elem` packs exactly as `Pack`, at every nesting level |
| Marshal.PackArgumentsMixedUp | daemon/engine.c:413-416 | with a second argument, `{10, 20}, "x"` packs as `{"x": 1, "x": 2}`, `{a = 1}, 7` packs as `["a"]`, and `{a = 1}, true` has no member name |
| Marshal.CallArgument | daemon/engine.c:411-420 | the callback argument is absent without arguments, the text for a string or number, and NULL for anything else; a table is packed as it would be alone on the stack, which is what the code does for a single argument, and a canonical table reads back from it |
| Marshal.Trampoline | daemon/engine.c:421-440 | a result exists only for a property callback that returned text; text that decodes as JSON is unpacked into the Lua value, undecodable text is returned as the raw string |
| Marshal.TrampolineReturnsPacked | daemon/engine.c:424-436 | a property returning the JSON of a canonical value hands that value back |
| Broadcast.U32RoundTrip | daemon/engine.c:367-371 | the 4-byte length prefix reads back as the length written |
| Broadcast.Request | daemon/engine.c:355-368 | the request frame is 4 bytes of length followed by that many command bytes |
| Broadcast.RequestCarriesCommand | daemon/engine.c:354-368 | a sibling splitting the frame recovers the C string of the command |
| Broadcast.SiblingResult | daemon/engine.c:364-390 | each sibling contributes one non-nil entry: `false` when a write, the length read, the allocation or the body read falls short; otherwise the decoder's tree of the terminated buffer's C string (exactly the body when it holds no NUL), or the whole body as text when it does not decode |
| Broadcast.SiblingResults | daemon/engine.c:364-390 | one non-nil entry per sibling, in pipe order, `false` for every failed exchange |
| Broadcast.Map | daemon/engine.c:351-392 | the reply is a sequence table with one entry for a non-nil local result plus one per sibling, and the local result sits at index 1 |
| Broadcast.MapTable | daemon/engine.c:351-392 | the reply table is the sequence of the local result (if not nil) followed by every sibling's entry in pipe order |
| Broadcast.MapWithoutSiblings | daemon/engine.c:358-362 | without siblings the table is {local} |
| Broadcast.FailureIsolated | daemon/engine.c:347-390 | a failure at any step turns only that sibling's slot into `false`; the length and every other slot are unchanged |
| Broadcast.BufferSizeWraps | daemon/engine.c:372 | the allocation size as written wraps to 0 for the largest announced length |
| Broadcast.BufferSizeAgrees | daemon/engine.c:372-375 | the corrected allocation always exceeds the announced length; the size as written agrees with it, and has room for the NUL, for every length but 0xFFFFFFFF |
| Broadcast.ReplyBuffer | daemon/engine.c:372-377 | the terminator lands inside the allocation, right after the body, so the decoder sees exactly a NUL-free body |
| QueryFlags.FlagIsShiftedBit | lib/rplan.h:29-46 | flag i is `1 << i` |
| QueryFlags.FlagsDisjoint | lib/rplan.h:29-53 | the flags are non-zero and pairwise disjoint bits |
| QueryFlags.NamesDistinct | lib/rplan.h:29-46 | the seventeen names are distinct |
| QueryFlags.Lookup | daemon/engine.c:186-191 | the scan finds the first equal name from a position, or reports there is none |
| QueryFlags.Position | daemon/engine.c:184-196 | a name has a position exactly when it is in the table, and the position holds that name |
| QueryFlags.PositionOfName | daemon/engine.c:186-191 | each name maps back to its own flag |
| Options.OptionCode | daemon/engine.c:182-196 | a string or number argument must name a flag ("invalid option name" otherwise) and selects its bit; any other argument selects no bit |
| Options.SetOption | daemon/engine.c:179-207 | the call fails exactly for an unknown name, with the "invalid option name" error |
| Options.SetOptionNamed | daemon/engine.c:197-205 | true sets exactly the named bit, false clears exactly it, a non-assigning value keeps the word, no other bit changes, and the result says whether the bit is set |
| Options.SetOptionUnnamed | daemon/engine.c:183-205 | a name that is neither string nor number leaves the word unchanged and answers false |
| Options.SetThenClear | daemon/engine.c:198-203 | setting then clearing a flag gives the word with that flag off |
| Options.ZeroSets | daemon/engine.c:198-200 | the number 0 is truthy in Lua and sets the flag |
| Lru.KeyOf | tests/test_lru.c:64 | a key is the first `len` bytes of the buffer |
| Lru.Init | tests/test_lru.c:95-102 | a fresh table has the requested size and no entry |
| Lru.Get | tests/test_lru.c:67 | a lookup only answers with data some slot holds under exactly that key |
| Lru.Set | tests/test_lru.c:64-66 | a store always succeeds and touches only the key's slot |
| Lru.Evict | daemon/engine.c:537 | eviction frees exactly the given slot |
| Lru.SetThenGet | tests/test_lru.c:63-68 | a value just stored is read back under its key |
| Lru.InitMissing | tests/test_lru.c:71-76 | a fresh table answers no key |
| Lru.SetOtherKey | tests/test_lru.c:63-68 | a store under one key never makes up an answer for another key: that key keeps its answer or loses it |
| Lru.FillStep | tests/test_lru.c:63-76 | one more store answers its own key with its value; every other key keeps its answer or loses it |
| Lru.FillAnswersStored | tests/test_lru.c:71-76 | after any series of stores, a lookup answers only the value of the last store under that key, and never answers a key that was never stored |
| Lru.FillNewestReadable | tests/test_lru.c:78-93 | the newest key is readable after every store, beyond capacity too |
| Lru.KeyLengthMatters | tests/test_lru.c:27 | data stored under the first `len` bytes of a buffer is readable under that key but never answered for the first `len + 1` bytes unless that key was stored too |
| Maintenance.Sweep | daemon/engine.c:526-540 | after the loop no occupied slot scores above the threshold, stale slots are free, and every other slot is untouched |
| Maintenance.SweptGet | daemon/engine.c:530-539 | after a sweep a key answers its old score if within the threshold, nothing otherwise |
| Maintenance.SweptIdempotent | daemon/engine.c:530-539 | a second sweep changes nothing |
| Maintenance.SweptMonotone | daemon/engine.c:536 | a higher threshold never evicts more |
| Rplan.Init | lib/rplan.h:90-96 | a fresh plan is valid and empty |
| Rplan.Push | lib/rplan.h:111-122 | a push fails only when allocation fails; otherwise the query goes on top, ahead of every pending query, and the resolved list is unchanged |
| Rplan.PushFresh | lib/rplan.h:111-122 | the pushed query carries the given name, class, type and parent, has a fresh identity, and the plan stays valid |
| Rplan.Pop | lib/rplan.h:124-131 | popping fails exactly for a query not pending; otherwise the query leaves pending and is appended to resolved |
| Rplan.PopKeepsQueries | lib/rplan.h:124-131 | popping discards no query |
| Rplan.PopValid | lib/rplan.h:124-131 | popping keeps every pushed query in exactly one list |
| Rplan.EmptyIffAllResolved | lib/rplan.h:104-109 | a valid plan is empty exactly when every pushed query is resolved |
| Rplan.PushThenPopTop | lib/rplan.h:111-131 | pushing then popping the top restores pending and resolves that query |
| Control.SetAddr | daemon/main.c:143-152 | the address is the text before the first `#`; without `#` the argument and the default port are kept |
| Control.ListenPort | daemon/main.c:391-393 | the port passed to `network_listen` is the `uint16_t` cast of the parsed port |
| Control.SetAddrRoundTrip | daemon/main.c:143-152 | `addr#port` parses back to the address and port |
| Control.SetAddrDefault | daemon/main.c:390-393 | an address without a port listens on 53 |
| Control.ListenPortWraps | daemon/main.c:390-393 | a port beyond 16 bits wraps modulo 2^16 (65589 listens on 53) |
| Control.ForksOption | daemon/main.c:269-275 | `-f` is refused exactly when its number reads as 0, with the "requires number" error; an accepted option switches interactive mode off and sets the worker count to the number read |
| Control.ForksOfCount | daemon/main.c:269-275 | a written positive count is accepted as itself, with interactive mode off |
| Control.ConsoleOf | daemon/main.c:207-226 | a worker reads commands from the terminal exactly in interactive mode; otherwise it listens on the socket `tty/<pid>` |
| Control.ForksUseControlSockets | daemon/main.c:207-226 | after `-f`, each worker listens on its own `tty/<pid>` socket and two workers never share one; without `-f` the daemon reads from the terminal |
| Control.ForksRefusesWords | daemon/main.c:271-275 | an argument not starting with a number is refused |
| Control.KeyfilePath | daemon/main.c:283-308 | an absolute keyfile path is kept as given; a relative one is refused when the working directory cannot be resolved |
| Control.KeyfileFits | daemon/main.c:290-301 | a relative path is accepted exactly when cwd + "/" + arg and its NUL fit in `PATH_MAX`, and it then becomes that absolute path |
| Control.Message | daemon/main.c:81-84 | the message is missing exactly when the stack top is not string-convertible |
| Control.Render | daemon/main.c:86-101 | the answer is the message, then a newline unless the message is missing in quiet mode, then the prompt unless quiet |
| Control.RenderSilent | daemon/main.c:81-101 | the answer is empty only in quiet mode for a non-string result; otherwise it ends a line before the prompt |
| Control.Command | daemon/main.c:73-77 | the command is a NUL-free prefix of the bytes read |
| Control.CommandOfLine | daemon/main.c:73-77 | one trailing newline is stripped and nothing else changes |
| Control.CommandAsWritten | daemon/main.c:73-80 | the code as written hands over the buffer up to its first NUL, with a final newline overwritten: a NUL-free prefix followed by a NUL or the end of the buffer |
| Control.CommandAsWrittenOnLines | daemon/main.c:73-77 | for a read ending in a newline the code as written takes the intended command |
| Control.CommandAsWrittenOverreads | daemon/main.c:73-80 | a read of `ab` into a buffer still holding `c` evaluates `abc`, not `ab` |
| Control.TtyRead | daemon/main.c:56-111 | a client read of length ≤ 0 closes the client and does nothing else; otherwise the command is evaluated (the corrected `Command` of the main.c:73-80 finding, not the buffer as written); the answer goes to stderr exactly on failure; a client gets the answer back; stdout is closed exactly when a client's descriptor could not be duplicated; a client's stdout receives the echoed command and a newline, then the answer when the descriptor could not be duplicated, then the answer again when evaluation succeeded |
| Control.RemoteGetsAnswer | daemon/main.c:85-101 | a client gets the answer, and on success stdout shows the command echoed, then the same output as on the terminal |
| Control.AcceptGreeting | daemon/main.c:129-133 | a new client gets the prompt exactly when not quiet |

## Left out

- The Lua interpreter (`engine_cmd`, `engine_pcall`, configuration loading, the sandbox) is not modelled. What a command leaves on the stack, and its return code, are inputs.
- Module loading (`kr_module_load`, `ffimodule_register_lua`, `engine_unload`) is an oracle verdict, together with whether the allocation and the array push succeed.
- `register_properties` is reduced to the list of names it publishes. The `modules_register` hook is foreign Lua code.
- The `EINVAL` checks for NULL engine or name pointers are not modelled: Dafny values are never NULL.
- Lua and JSON numbers are modelled as integers, not doubles. `lua_tostring` of a number is its plain decimal form.
- `lua_isnumber` on a string is modelled as accepting integer numerals only, with blanks around them. Lua's hexadecimal and floating-point numerals are not modelled.
- Table keys are modelled as numbers and strings only. Traversal order is taken to be the order of the entry sequence, with new keys going last. Lua's real hash order is unspecified.
- Marshal.PackUnpack: keeps an object's member order only because the model traverses a table in insertion order. Lua traverses string keys in hash order, so the program may give the members back in another order. The same assumption makes `Marshal.UnpackPack` compare record tables entry by entry. The array half of both lemmas does not depend on it.
- Broadcast.Map: takes the command as bytes, so a `map()` call without a string or number argument cannot arise in the model. In the code, `lua_tostring(L, 1)` is then NULL and `strlen(NULL)` (daemon/engine.c:354-355) is undefined behaviour, in practice a crash of the daemon.
- `l_pack_elem` calls `lua_tostring` on a numeric key during `lua_next`, which can disturb the traversal in the real interpreter. That disturbance is not modelled: the key is rendered as text and the traversal continues.
- The JSON text format (`json_encode`, `json_decode`) is not modelled. A property's reply is its text together with the decoder's verdict. In `map()` the decoder is a parameter applied to the C string of the reply buffer.
- A JSON allocation failure inside `l_pack_elem` (a NULL from `json_mkarray` or `json_mkobject`) is not modelled.
- The length prefix is sent in native byte order. It is modelled as little-endian, and only the round trip is asserted.
- Broadcast.RequestCarriesCommand: assumes a command shorter than 2^32 bytes. `Broadcast.WireLength` truncates `strlen(cmd)` to 32 bits, as the source does, but the round trip is asserted only below that bound.
- Control.TtyRead: evaluates and echoes the corrected command of the daemon/main.c:73-80 finding (`Control.Command`), not the buffer as the code hands it over (`Control.CommandAsWritten`). The two agree on every read ending in a newline (`Control.CommandAsWrittenOnLines`).
- Registry.Unregister: does not state the order of the remaining modules, only that exactly one copy of the name leaves and nothing else does. lib/generic/array.h, which defines `array_del`, is not part of this model.
- lib/generic/lru.h is not part of this model. The LRU is a direct-mapped table: a key lives in the slot its hash selects, and a store evicts whatever that slot held. Only what tests/test_lru.c checks is asserted.
- lib/nsrep.h is not part of this model. `KR_NS_LONG` is a parameter of the sweep.
- lib/rplan.c is not part of this model. The name table `kr_query_flag_names` is taken to be the `QUERY_FLAGS` names without their `QUERY_` prefix, in declaration order. The plan follows the doc comments of lib/rplan.h.
- The plan's top is the front of the pending list. Each query gets an identity when pushed; this stands in for its address.
- `kr_rplan_deinit` and `kr_rplan_satisfies` are not modelled. The latter has no documented meaning.
- An option name with an embedded NUL is not modelled: `strcmp` would stop at the NUL.
- The `forks > 1` refusal when `SO_REUSEPORT` is unavailable is a build-time switch and is not modelled.
- `strdup` failure in the keyfile code is not modelled. `realpath(".")` failing is modelled as an absent working directory.
- `atoi` overflow is undefined behaviour in C and is not modelled: the parsed value is unbounded.
- Process and OS calls are not modelled: `l_setuser`, `l_hostname`, `l_trustanchor`, `l_libpath`, the fork loop, `getopt`, signal handling and socket binding.
- libuv plumbing (timers, `uv_close`, `dup`, `fdopen`) and the engine lifecycle (`engine_init`, `engine_deinit`, `engine_start`, `engine_stop`) are not modelled. `tty_read`'s streams are modelled only as the text written to each.
- tty_read's `engine_cmd(engine, cmd)` call (daemon/main.c:80) does not match the declared `engine_cmd(lua_State *, const char *, bool)` at daemon/engine.c:626. Evaluation is abstracted to a return code and a stack top.

## Findings

| source | as written | input that shows it | evidently intended | confidence | as-written member | corrected member |
|---|---|---|---|---|---|---|
| daemon/engine.c:372-375 | `malloc(rlen + 1)` adds in 32-bit `uint32_t`, so a sibling announcing 4294967295 bytes gets a 0-byte buffer. `read` and `rbuf[rlen] = '\0'` then write far outside it | a sibling reply whose length prefix is 0xFFFFFFFF | allocate `rlen + 1` bytes computed without wrap-around, so the body and its terminating NUL fit | not executed | Broadcast.BufferSizeAsWritten, Broadcast.BufferSizeWraps | Broadcast.BufferSizeAgrees, Broadcast.ReplyBuffer, Broadcast.SiblingResult |
| daemon/main.c:73-80 | the bytes read are handed to the interpreter as a C string. They are NUL-terminated only when the last byte read is a newline, so a read without one runs on into whatever the buffer held after it | a client sends `ab` with no newline into a buffer whose next byte is `c`: the code evaluates `abc` | evaluate exactly the `nread` bytes read, less one trailing newline | not executed | Control.CommandAsWritten, Control.CommandAsWrittenOverreads | Control.Command, Control.CommandOfLine |
| daemon/engine.c:413-416 | `l_trampoline` packs its first argument with `l_pack_elem(L, 1)`, which reads each entry's key and value at the absolute slots 2 and 3. `lua_next` pushes them above all the arguments, so with a second argument the argument slots are read instead | a property called as `prop({10, 20}, "x")` receives `{"x":1,"x":2}`; `prop({a = 1}, true)` passes a NULL member name to `json_append_member` | pack the first argument as if it were alone on the stack, e.g. after pushing a copy of it to the top | not executed | Marshal.PackAt, Marshal.PackArgumentsMixedUp | Marshal.CallArgument, Marshal.PackAtTop |

=== FILE: broadcast.dfy ===
/**
  The `map(expr)` broadcast of daemon/engine.c (`l_map`): the command is evaluated
  locally, then sent to every sibling worker over its pipe as a length-prefixed frame,
  and the replies are gathered, in pipe order, into one Lua table.
 */
module Broadcast {
  import opened Text
  import L = Lua
  import M = Marshal
  import J = Json
  import opened Wrappers

  const U32_LIMIT: nat := 0x1_0000_0000

  type uint32 = x: int | 0 <= x < 0x1_0000_0000

  /** A `uint32_t` as the four bytes `write` sends; native order is taken to be little-endian. */
  function U32Bytes(n: uint32): (b: seq<byte>)
    ensures |b| == 4
  {
    [n % 256, (n / 256) % 256, (n / 65536) % 256, n / 16777216]
  }

  /** The `uint32_t` that `read` fills from four bytes. */
  function U32Value(b: seq<byte>): uint32
    requires |b| == 4
  {
    b[0] as int + 256 * (b[1] as int) + 65536 * (b[2] as int) + 16777216 * (b[3] as int)
  }

  /** The length prefix reads back as the length that was written. */
  lemma U32RoundTrip(n: uint32)
    ensures U32Value(U32Bytes(n)) == n
  {
    var b := U32Bytes(n);
    assert n == n % 256 + 256 * (n / 256);
    assert n / 256 == (n / 256) % 256 + 256 * (n / 65536);
    assert n / 65536 == (n / 65536) % 256 + 256 * (n / 16777216);
  }

  /** `uint32_t len = strlen(cmd)`: the command's C length, truncated to 32 bits. */
  function WireLength(cmd: seq<byte>): uint32 {
    CStrLen(cmd) % U32_LIMIT
  }

  /** The request frame: the 4-byte length, then that many command bytes. */
  function Request(cmd: seq<byte>): (frame: seq<byte>)
    ensures |frame| == 4 + WireLength(cmd)
  {
    U32Bytes(WireLength(cmd)) + cmd[..WireLength(cmd)]
  }

  /** How a receiver splits a frame: the length prefix, then the payload it announces. */
  function ReadRequest(frame: seq<byte>): seq<byte>
    requires |frame| >= 4 && |frame| >= 4 + U32Value(frame[..4])
  {
    frame[4..4 + U32Value(frame[..4])]
  }

  lemma RequestShape(cmd: seq<byte>)
    ensures Request(cmd)[..4] == U32Bytes(WireLength(cmd))
    ensures Request(cmd)[4..] == cmd[..WireLength(cmd)]
  {
  }

  /** A sibling reading the frame recovers the command text exactly, up to its first NUL. */
  lemma RequestCarriesCommand(cmd: seq<byte>)
    requires CStrLen(cmd) < U32_LIMIT
    ensures |Request(cmd)| >= 4 + U32Value(Request(cmd)[..4])
    ensures ReadRequest(Request(cmd)) == CString(cmd)
  {
    var n := WireLength(cmd);
    RequestShape(cmd);
    U32RoundTrip(n);
    var f := Request(cmd);
    assert f[4..4 + n] == f[4..];
  }

  /**
    What the system calls of one sibling's exchange returned: the two writes of the
    request, the read of the reply length and that length, whether the reply buffer
    was obtained, and the read of the reply body (`None` when `read` failed, otherwise
    the bytes it delivered). Fields of steps after a failing one are never looked at.
   */
  datatype Exchange = Exchange(
    lenWritten: int,
    cmdWritten: int,
    lenRead: int,
    rlen: uint32,
    bufferOk: bool,
    body: Option<seq<byte>>)

  /**
    A step of the exchange falls short: a write of the length or of the command, the
    read of the reply length, the reply buffer's allocation, or the read of the body.
   */
  predicate Failed(x: Exchange, len: uint32) {
    || x.lenWritten != 4
    || x.cmdWritten != len
    || x.lenRead != 4
    || !x.bufferOk
    || x.body.None?
    || |x.body.value| != x.rlen
  }

  /**
    The one entry a sibling contributes, each step checked in turn. A reply that came
    in whole is terminated in its buffer; the JSON decoder (`decode`) reads the C
    string there, and when it fails the reply's `rlen` bytes are taken as text.
   */
  function SiblingResult(x: Exchange, len: uint32, decode: seq<byte> -> Option<J.Json>): (v: L.Value)
    ensures !v.Nil?
    ensures Failed(x, len) ==> v == L.Boolean(false)
    ensures !Failed(x, len) && NUL !in x.body.value ==>
              v == M.DecodeReply(M.Reply(BytesText(x.body.value), decode(x.body.value)))
    ensures !Failed(x, len) ==>
              v == M.DecodeReply(M.Reply(BytesText(x.body.value), decode(CString(ReplyBuffer(x.body.value)))))
  {
    if x.lenWritten != 4 then L.Boolean(false)
    else if x.cmdWritten != len then L.Boolean(false)
    else if x.lenRead != 4 then L.Boolean(false)
    else if !x.bufferOk then L.Boolean(false)
    else if x.body.None? || |x.body.value| != x.rlen then L.Boolean(false)
    else
      var buf := ReplyBuffer(x.body.value);
      M.DecodeReply(M.Reply(BytesText(x.body.value), decode(CString(buf))))
  }

  /** Append each sibling's entry at `lua_rawlen + 1`, in pipe order. */
  function Collect(t: seq<L.Entry>, xs: seq<Exchange>, len: uint32, decode: seq<byte> -> Option<J.Json>): seq<L.Entry>
    decreases xs
  {
    if |xs| == 0 then t else Collect(L.Append(t, SiblingResult(xs[0], len, decode)), xs[1..], len, decode)
  }

  /**
    `l_map`: the local result goes to index 1 (assigning nil leaves the table empty),
    then every sibling appends its entry.
   */
  function Map(local: L.Value, cmd: seq<byte>, xs: seq<Exchange>, decode: seq<byte> -> Option<J.Json>): (m: seq<L.Entry>)
    ensures L.IsSequence(m)
    ensures |m| == (if local.Nil? then 0 else 1) + |xs|
    ensures !local.Nil? ==> m[0] == L.Entry(L.KNum(1), local)
  {
    var first := L.Set([], L.KNum(1), local);
    var vs := if local.Nil? then [] else [local];
    assert first == M.Numbered(vs);
    CollectNumbered(vs, xs, WireLength(cmd), decode);
    Collect(first, xs, WireLength(cmd), decode)
  }

  /** The entries the siblings contribute, in pipe order. */
  function SiblingResults(xs: seq<Exchange>, len: uint32, decode: seq<byte> -> Option<J.Json>): (vs: seq<L.Value>)
    ensures |vs| == |xs|
    ensures forall i :: 0 <= i < |vs| ==> !vs[i].Nil?
    ensures forall i :: 0 <= i < |vs| && Failed(xs[i], len) ==> vs[i] == L.Boolean(false)
  {
    seq(|xs|, i requires 0 <= i < |xs| => SiblingResult(xs[i], len, decode))
  }

  lemma SiblingResultsCons(vs: seq<L.Value>, xs: seq<Exchange>, len: uint32, decode: seq<byte> -> Option<J.Json>)
    requires |xs| > 0
    ensures vs + [SiblingResult(xs[0], len, decode)] + SiblingResults(xs[1..], len, decode)
            == vs + SiblingResults(xs, len, decode)
  {
    assert SiblingResults(xs, len, decode) == [SiblingResult(xs[0], len, decode)] + SiblingResults(xs[1..], len, decode);
  }

  lemma {:induction false} CollectNumbered(vs: seq<L.Value>, xs: seq<Exchange>, len: uint32, decode: seq<byte> -> Option<J.Json>)
    requires forall i :: 0 <= i < |vs| ==> !vs[i].Nil?
    ensures Collect(M.Numbered(vs), xs, len, decode) == M.Numbered(vs + SiblingResults(xs, len, decode))
    decreases xs
  {
    if |xs| == 0 {
      assert vs + SiblingResults(xs, len, decode) == vs;
    } else {
      var v := SiblingResult(xs[0], len, decode);
      M.AppendNumbered(vs, v);
      CollectNumbered(vs + [v], xs[1..], len, decode);
      SiblingResultsCons(vs, xs, len, decode);
    }
  }

  /**
    The reply table is the sequence `{local, r1, r2, …}`: the local result at index 1,
    then exactly one entry per sibling in pipe order. A nil local result leaves index 1
    to the first sibling.
   */
  lemma MapTable(local: L.Value, cmd: seq<byte>, xs: seq<Exchange>, decode: seq<byte> -> Option<J.Json>)
    ensures var rs := SiblingResults(xs, WireLength(cmd), decode);
            Map(local, cmd, xs, decode) == M.Numbered((if local.Nil? then [] else [local]) + rs)
  {
    var len := WireLength(cmd);
    if local.Nil? {
      assert L.Set([], L.KNum(1), local) == M.Numbered([]);
      CollectNumbered([], xs, len, decode);
    } else {
      assert L.Set([], L.KNum(1), local) == M.Numbered([local]);
      CollectNumbered([local], xs, len, decode);
    }
  }

  /** With no siblings the reply table holds just the local result. */
  lemma MapWithoutSiblings(local: L.Value, cmd: seq<byte>, decode: seq<byte> -> Option<J.Json>)
    requires !local.Nil?
    ensures Map(local, cmd, [], decode) == [L.Entry(L.KNum(1), local)]
  {
    MapTable(local, cmd, [], decode);
  }

  /**
    One sibling's failure, at whichever step, is isolated: its slot becomes `false` and every other slot,
    the local one included, is the same as if it had not failed.
   */
  lemma FailureIsolated(local: L.Value, cmd: seq<byte>, xs: seq<Exchange>, i: nat, y: Exchange,
                        decode: seq<byte> -> Option<J.Json>)
    requires i < |xs| && Failed(y, WireLength(cmd))
    ensures var before := Map(local, cmd, xs, decode);
            var after := Map(local, cmd, xs[i := y], decode);
            var slot := i + (if local.Nil? then 0 else 1);
            && |after| == |before|
            && slot < |after|
            && after[slot] == L.Entry(L.KNum(slot + 1), L.Boolean(false))
            && forall j :: 0 <= j < |after| && j != slot ==> after[j] == before[j]
  {
    MapTable(local, cmd, xs, decode);
    MapTable(local, cmd, xs[i := y], decode);
  }

  // ---------------------------------------------------------------------------
  // Size of the reply buffer

  /** `malloc(rlen + 1)` as written: the sum is computed in 32-bit unsigned arithmetic. */
  function BufferSizeAsWritten(rlen: uint32): nat {
    (rlen + 1) % U32_LIMIT
  }

  /** A 4294967295-byte announcement wraps the allocation to zero bytes, too small for the body and its NUL. */
  lemma BufferSizeWraps()
    ensures BufferSizeAsWritten(0xFFFF_FFFF) == 0 < 0xFFFF_FFFF + 1
  {
  }

  /** The allocation computed in `size_t`, which the model assumes when `bufferOk` holds. */
  function BufferSize(rlen: uint32): nat {
    rlen as nat + 1
  }

  /**
    The two sizes differ for exactly one announced length: the largest, the only one
    whose allocation as written has no room for the terminating NUL.
   */
  lemma BufferSizeAgrees(rlen: uint32)
    ensures rlen < BufferSize(rlen)
    ensures BufferSizeAsWritten(rlen) == BufferSize(rlen) <==> rlen != 0xFFFF_FFFF
    ensures BufferSizeAsWritten(rlen) > rlen <==> rlen != 0xFFFF_FFFF
  {
  }

  /**
    The reply buffer once the body is read into it and `rbuf[rlen] = '\0'` is stored:
    the terminator lands inside the allocation, so the decoder sees exactly the body
    as long as the body holds no NUL of its own.
   */
  function ReplyBuffer(body: seq<byte>): (buf: seq<byte>)
    requires |body| < U32_LIMIT
    ensures |buf| == BufferSize(|body|) && buf[..|body|] == body && buf[|body|] == NUL
    ensures NUL !in body ==> CString(buf) == body
  {
    var size := BufferSize(|body|);
    var filled := body + seq(size - |body|, _ => NUL);
    filled[|body| := NUL]
  }
}

=== FILE: control.dfy ===
/**
  The daemon's front end in daemon/main.c: the `-a addr#port`, `-f forks` and
  `-k keyfile` options, and the interactive console (`tty_read`, `tty_accept`) that
  evaluates each line read from the terminal or a control socket and echoes the result.
 */
module Control {
  import opened Wrappers
  import opened Text
  import L = Lua

  const DEFAULT_PORT: int := 53
  const PATH_MAX: nat := 4096
  const PROMPT: string := "> "

  // ---------------------------------------------------------------------------
  // Listening addresses

  datatype Endpoint = Endpoint(addr: string, port: int)

  /**
    `set_addr`: an `-a` argument is an address, optionally followed by `#` and a port
    read with `atoi`; without `#` the caller's default port stays.
   */
  function SetAddr(arg: string, port: int): (e: Endpoint)
    ensures '#' !in e.addr && e.addr <= arg
    ensures '#' !in arg ==> e == Endpoint(arg, port)
    ensures '#' in arg ==> |e.addr| < |arg| && arg[|e.addr|] == '#' && e.port == Atoi(arg[|e.addr| + 1..])
  {
    var i := IndexOf(arg, '#');
    if i == |arg| then Endpoint(arg, port) else Endpoint(arg[..i], Atoi(arg[i + 1..]))
  }

  /** The port as `network_listen` receives it: the `int` cast to `uint16_t`, modulo 2^16. */
  function ListenPort(port: int): (p: nat)
    ensures p < 65536
    ensures 0 <= port < 65536 ==> p == port
    ensures (p - port) % 65536 == 0
  {
    port % 65536
  }

  /** Writing an address and a port as `addr#port` gives both back. */
  lemma SetAddrRoundTrip(addr: string, port: int, default: int)
    requires '#' !in addr
    ensures SetAddr(addr + "#" + IntToDecimal(port), default) == Endpoint(addr, port)
  {
    var arg := addr + "#" + IntToDecimal(port);
    assert forall i :: 0 <= i < |addr| ==> arg[i] == addr[i];
    assert arg[|addr|] == '#';
    assert IndexOf(arg, '#') == |addr|;
    assert arg[..|addr|] == addr;
    assert arg[|addr| + 1..] == IntToDecimal(port);
    AtoiOfDecimal(port);
  }

  /** An address given without a port listens on 53. */
  lemma SetAddrDefault(addr: string)
    requires '#' !in addr
    ensures ListenPort(SetAddr(addr, DEFAULT_PORT).port) == 53
  {
  }

  /**
    A port beyond 16 bits is not refused but wraps: `addr#p` listens on `p` modulo 2^16,
    so `addr#65589` listens on port 53.
   */
  lemma ListenPortWraps(addr: string, port: int)
    requires '#' !in addr
    ensures ListenPort(SetAddr(addr + "#" + IntToDecimal(port), DEFAULT_PORT).port) == port % 65536
    ensures ListenPort(65589) == 53
  {
    SetAddrRoundTrip(addr, port, DEFAULT_PORT);
  }

  // ---------------------------------------------------------------------------
  // Forks

  const FORKS_ERROR: string := "'-f' requires number"

  /** What the command line decides about the workers: interactive mode and the number of forks. */
  datatype Launch = Launch(interactive: bool, forks: int)

  /** Without `-f` the daemon is interactive and runs one worker. */
  const DEFAULT_LAUNCH: Launch := Launch(true, 1)

  /**
    `-f n`: interactive mode is switched off whatever `n` is, and the number of forks is
    `atoi(n)`, which must not be 0 (text that is not a number reads as 0). A refused
    count ends the daemon, so only an accepted one yields settings.
   */
  function ForksOption(arg: string): (r: Result<Launch, string>)
    ensures r.Failure? ==> r.error == FORKS_ERROR
    ensures r.Failure? <==> Atoi(arg) == 0
    ensures r.Success? ==> !r.value.interactive && r.value.forks == Atoi(arg) != 0
  {
    var forks := Atoi(arg);
    if forks == 0 then Failure(FORKS_ERROR) else Success(Launch(false, forks))
  }

  /** A written positive count is accepted as that count, without interactive mode. */
  lemma ForksOfCount(n: nat)
    requires n > 0
    ensures ForksOption(NatToDecimal(n)) == Success(Launch(false, n))
  {
    AtoiOfNatDecimal(n);
  }

  /** Where a worker takes its commands from (`run_worker`). */
  datatype Console = Terminal | ControlSocket(path: string)

  /**
    An interactive worker reads the terminal (descriptor 0); any other listens on the
    control socket `tty/<pid>`.
   */
  function ConsoleOf(launch: Launch, pid: nat): (c: Console)
    ensures c.Terminal? <==> launch.interactive
    ensures c.ControlSocket? ==> c.path == "tty/" + NatToDecimal(pid)
  {
    if launch.interactive then Terminal else ControlSocket("tty/" + NatToDecimal(pid))
  }

  /**
    With `-f` every worker answers on its own control socket instead of the terminal;
    without it the daemon stays on the terminal.
   */
  lemma ForksUseControlSockets(arg: string, pid: nat, other: nat)
    requires ForksOption(arg).Success? && pid != other
    ensures ConsoleOf(ForksOption(arg).value, pid) == ControlSocket("tty/" + NatToDecimal(pid))
    ensures ConsoleOf(ForksOption(arg).value, pid) != ConsoleOf(ForksOption(arg).value, other)
    ensures ConsoleOf(DEFAULT_LAUNCH, pid) == Terminal
  {
    DigitsValueOfDecimal(pid);
    DigitsValueOfDecimal(other);
    assert ("tty/" + NatToDecimal(pid))[4..] == NatToDecimal(pid);
    assert ("tty/" + NatToDecimal(other))[4..] == NatToDecimal(other);
  }

  /** An argument that does not start with a number (after blanks and a sign) is refused. */
  lemma ForksRefusesWords(arg: string)
    requires |arg| > 0 && !IsDigit(arg[0]) && !IsSpace(arg[0]) && arg[0] != '-' && arg[0] != '+'
    ensures ForksOption(arg).Failure?
  {
    assert SkipSpaces(arg) == arg;
    assert DigitPrefix(arg) == [];
  }

  // ---------------------------------------------------------------------------
  // Keyfile

  /**
    `-k file`: an absolute path is kept as it is; a relative one is appended to the
    working directory (`cwd`, what `realpath(".")` yields, `None` when it fails) with a
    `/` between, provided the result and its NUL fit in a `PATH_MAX` buffer, and is
    refused otherwise.
   */
  function KeyfilePath(arg: string, cwd: Option<string>): (r: Option<string>)
    requires '\0' !in arg && (cwd.Some? ==> '\0' !in cwd.value)
    ensures |arg| > 0 && arg[0] == '/' ==> r == Some(arg)
    ensures !(|arg| > 0 && arg[0] == '/') && cwd.None? ==> r.None?
  {
    if |arg| > 0 && arg[0] == '/' then Some(arg)
    else if cwd.None? then None
    else if |cwd.value| + |arg| < PATH_MAX - 1 then Some(cwd.value + "/" + arg)
    else None
  }

  /**
    The length check is exact: a relative keyfile is accepted exactly when the joined
    path, with its terminating NUL, fits in `PATH_MAX` bytes, and it then names the file
    inside the working directory, as an absolute path.
   */
  lemma KeyfileFits(arg: string, cwd: string)
    requires '\0' !in arg && '\0' !in cwd
    requires |cwd| > 0 && cwd[0] == '/'
    requires !(|arg| > 0 && arg[0] == '/')
    ensures var r := KeyfilePath(arg, Some(cwd));
            && (r.Some? <==> |cwd + "/" + arg| + 1 <= PATH_MAX)
            && (r.Some? ==> r.value == cwd + "/" + arg && r.value[0] == '/')
  {
  }

  // ---------------------------------------------------------------------------
  // Console

  /**
    What evaluating a command gave: `engine_cmd`'s return code and the value left on top
    of the Lua stack (`None` when the stack is empty).
   */
  datatype Eval = Eval(ret: int, top: Option<L.Value>)

  /** The message to print: `""` for an empty stack, else `lua_tostring` of the top, NULL (`None`) when that is no string. */
  function Message(e: Eval): (m: Option<string>)
    ensures m.None? <==> e.top.Some? && !L.IsStringLike(e.top.value)
  {
    if e.top.None? then Some("") else L.ToString(e.top.value)
  }

  function Delim(quiet: bool): string {
    if quiet then "" else PROMPT
  }

  /** The answer printed for a command: the message (as `%s`), a newline, then the prompt. */
  function Render(message: Option<string>, quiet: bool): (out: string)
    ensures message.Some? ==> out == UpTo(message.value, '\0') + "\n" + Delim(quiet)
    ensures message.None? ==> out == (if quiet then "" else "\n" + PROMPT)
  {
    (if message.Some? then UpTo(message.value, '\0') else "")
    + (if message.Some? || !quiet then "\n" else "")
    + Delim(quiet)
  }

  /**
    Because the message defaults to `""`, the answer is silent only in quiet mode for a
    result that does not convert to a string; otherwise it always ends a line.
   */
  lemma RenderSilent(e: Eval, quiet: bool)
    ensures Render(Message(e), quiet) == "" <==> quiet && e.top.Some? && !L.IsStringLike(e.top.value)
    ensures !quiet ==> Render(Message(e), quiet)[..|Render(Message(e), quiet)| - 2] == (if Message(e).Some? then UpTo(Message(e).value, '\0') else "") + "\n"
  {
  }

  /** Where a read came from: the terminal, or a control-socket client (`dupOk`: its descriptor could be duplicated). */
  datatype Source = Stdin | Remote(dupOk: bool)

  /**
    What one `tty_read` call does: whether it closes the client, which command it
    evaluates, what it writes to standard output, standard error and the client, and
    whether it ends up closing standard output itself.
   */
  datatype Effect = Effect(closed: bool, command: Option<string>, stdout: string, stderr: string,
                           remote: string, stdoutClosed: bool)

  /**
    The command a read carries: the bytes read, without one trailing newline, up to the
    first NUL.
   */
  function Command(buf: string, nread: nat): (cmd: string)
    requires 0 < nread <= |buf|
    ensures |cmd| <= nread && cmd <= buf && '\0' !in cmd
  {
    var line := buf[..nread];
    UpTo(if line[nread - 1] == '\n' then line[..nread - 1] else line, '\0')
  }

  /** One trailing newline is dropped and nothing else is touched. */
  lemma CommandOfLine(text: string, rest: string, newline: bool)
    requires '\0' !in text && (!newline ==> |text| > 0 && text[|text| - 1] != '\n')
    ensures var line := if newline then text + "\n" else text;
            Command(line + rest, |line|) == text
  {
    var line := if newline then text + "\n" else text;
    assert (line + rest)[..|line|] == line;
    if newline {
      assert line[..|line| - 1] == text;
    }
    assert IndexOf(text, '\0') == |text|;
  }

  /**
    `tty_read` as written: the buffer is handed to the interpreter as a C string, with
    a trailing newline overwritten by NUL, and nothing terminating it otherwise.
   */
  function CommandAsWritten(buf: string, nread: nat): (cmd: string)
    requires 0 < nread <= |buf|
    ensures var b := if buf[nread - 1] == '\n' then buf[nread - 1 := '\0'] else buf;
            && cmd <= b
            && '\0' !in cmd
            && (|cmd| < |b| ==> b[|cmd|] == '\0')
  {
    UpTo(if buf[nread - 1] == '\n' then buf[nread - 1 := '\0'] else buf, '\0')
  }

  lemma {:induction false} UpToCut<T>(s: seq<T>, k: nat, x: T)
    requires k < |s| && s[k] == x
    ensures UpTo(s, x) == UpTo(s[..k], x)
  {
    if k > 0 && s[0] != x {
      UpToCut(s[1..], k - 1, x);
      assert s[1..][..k - 1] == s[..k][1..];
    }
  }

  /** For a newline-terminated read the code as written takes the intended command. */
  lemma CommandAsWrittenOnLines(buf: string, nread: nat)
    requires 0 < nread <= |buf| && buf[nread - 1] == '\n'
    ensures CommandAsWritten(buf, nread) == Command(buf, nread)
  {
    var b := buf[nread - 1 := '\0'];
    UpToCut(b, nread - 1, '\0');
    assert b[..nread - 1] == buf[..nread][..nread - 1];
  }

  /**
    A read without a newline is not terminated: whatever the buffer held after the
    bytes read becomes part of the command. Reading `ab` into a buffer that still holds
    `c` evaluates `abc`.
   */
  lemma CommandAsWrittenOverreads()
    ensures CommandAsWritten("abc", 2) == "abc"
    ensures Command("abc", 2) == "ab"
  {
    assert IndexOf("abc", '\0') == 3;
    assert IndexOf("ab", '\0') == 2;
  }

  /**
    `tty_read`. A client read of length ≤ 0 closes the client and does nothing else;
    an empty terminal read does nothing. Otherwise the command is evaluated; a client's
    command is echoed to standard output and the answer sent back to it (to standard
    output when its descriptor could not be duplicated, and that stream is then closed);
    the answer also goes to standard error when evaluation failed and to standard
    output otherwise.
   */
  function TtyRead(source: Source, nread: int, buf: string, quiet: bool, e: Eval): (r: Effect)
    requires nread <= |buf|
    ensures r.closed <==> source.Remote? && nread <= 0
    ensures r.command.Some? <==> nread > 0
    ensures r.command.Some? ==> r.command.value == Command(buf, nread)
    ensures r.command.None? ==> r.stdout == r.stderr == r.remote == ""
    ensures nread > 0 && e.ret != 0 ==> r.stderr == Render(Message(e), quiet)
    ensures e.ret == 0 ==> r.stderr == ""
    ensures source.Stdin? && nread > 0 ==> r.stdout == (if e.ret == 0 then Render(Message(e), quiet) else "")
    ensures source.Remote? && nread > 0 ==>
              r.stdout == Command(buf, nread) + "\n"
                          + (if source == Remote(false) then Render(Message(e), quiet) else "")
                          + (if e.ret == 0 then Render(Message(e), quiet) else "")
    ensures source.Stdin? ==> r.remote == "" && !r.stdoutClosed
    ensures r.stdoutClosed <==> nread > 0 && source == Remote(false)
  {
    if nread <= 0 then Effect(source.Remote?, None, "", "", "", false)
    else
      var cmd := Command(buf, nread);
      var answer := Render(Message(e), quiet);
      var echo := if source.Remote? then cmd + "\n" else "";
      var viaStdout := source == Remote(false);
      Effect(false, Some(cmd),
             echo + (if viaStdout then answer else "") + (if e.ret == 0 then answer else ""),
             if e.ret != 0 then answer else "",
             if source == Remote(true) then answer else "",
             viaStdout)
  }

  /** A client always gets the answer, echoed once, as the terminal would show it. */
  lemma RemoteGetsAnswer(nread: int, buf: string, quiet: bool, e: Eval)
    requires 0 < nread <= |buf|
    ensures TtyRead(Remote(true), nread, buf, quiet, e).remote == Render(Message(e), quiet)
    ensures e.ret == 0 ==>
              TtyRead(Remote(true), nread, buf, quiet, e).stdout
              == Command(buf, nread) + "\n" + TtyRead(Stdin, nread, buf, quiet, e).stdout
  {
    var answer := Render(Message(e), quiet);
    var r := TtyRead(Remote(true), nread, buf, quiet, e);
    var t := TtyRead(Stdin, nread, buf, quiet, e);
    assert r.remote == answer;
    if e.ret == 0 {
      assert r.stdout == Command(buf, nread) + "\n" + "" + answer;
      assert t.stdout == answer;
      assert Command(buf, nread) + "\n" + "" + answer == Command(buf, nread) + "\n" + answer;
    }
  }

  /** `tty_accept`: a new client is greeted with the prompt unless the daemon is quiet. */
  function AcceptGreeting(quiet: bool): (g: string)
    ensures g == "" <==> quiet
    ensures !quiet ==> g == Delim(quiet)
  {
    if quiet then "" else PROMPT
  }
}

=== FILE: json.dfy ===
/**
  The JSON tree of the ccan `json` library as the daemon sees it: a node is a scalar,
  an array of unkeyed children, or an object of keyed children, each list in document
  order. JSON numbers are modelled as integers; the text encoding is not modelled.
 */
module Json {

  datatype Json =
    | Null
    | Bool(b: bool)
    | Number(n: int)
    | String(s: string)
    | Array(elems: seq<Json>)
    | Object(members: seq<Member>)

  /** A keyed child of an object node. */
  datatype Member = Member(key: string, val: Json)

  predicate IsScalar(j: Json) {
    j.Bool? || j.Number? || j.String?
  }

  /** The children of an object carry pairwise distinct keys. */
  predicate DistinctMemberKeys(ms: seq<Member>) {
    forall i, j :: 0 <= i < j < |ms| ==> ms[i].key != ms[j].key
  }
}

=== FILE: lru.dfy ===
/**
  The bounded LRU hash table the resolver keeps its RTT scores in, as far as its own
  test suite (tests/test_lru.c) pins it down: a fixed number of slots, a key that is
  the bytes together with the length given, `lru_set` that always yields a slot for the
  new key (evicting whatever the key hashes onto), `lru_get` that answers only for a
  stored key, and `lru_evict` of a slot by index. The replacement policy of
  lib/generic/lru.h is not part of this model: a key's slot is its hash modulo the size.
 */
module Lru {
  import opened Wrappers
  import opened Text

  /** A slot is free, or holds a key and the data stored under it. */
  datatype Slot<V> = Empty | Full(key: seq<byte>, data: V)

  /** A table of `size` slots; `hash` is the table's hash function on keys. */
  datatype Table<V> = Table(slots: seq<Slot<V>>, hash: seq<byte> -> nat)

  predicate Valid<V>(t: Table<V>) {
    |t.slots| > 0
  }

  /** The key a call passes as `(buf, len)`: the first `len` bytes, nothing after. */
  function KeyOf(buf: seq<byte>, len: nat): (k: seq<byte>)
    requires len <= |buf|
    ensures |k| == len && k <= buf
  {
    buf[..len]
  }

  /** `lru_init(lru, size)`: `size` free slots. */
  function Init<V>(size: nat, hash: seq<byte> -> nat): (t: Table<V>)
    requires size > 0
    ensures Valid(t) && |t.slots| == size
    ensures forall i :: 0 <= i < size ==> t.slots[i].Empty?
  {
    Table(seq(size, _ => Empty), hash)
  }

  /** The one slot a key can live in. */
  function SlotOf<V>(t: Table<V>, key: seq<byte>): (i: nat)
    requires Valid(t)
    ensures i < |t.slots|
  {
    t.hash(key) % |t.slots|
  }

  /** `lru_get`: the data of the slot holding exactly this key, none otherwise. */
  function Get<V>(t: Table<V>, key: seq<byte>): (r: Option<V>)
    requires Valid(t)
    ensures r.Some? ==> exists i :: 0 <= i < |t.slots| && t.slots[i] == Full(key, r.value)
  {
    var s := t.slots[SlotOf(t, key)];
    if s.Full? && s.key == key then Some(s.data) else None
  }

  /**
    `lru_set` followed by a store through the returned pointer: the key's slot now holds
    the key and the value, whatever it held before.
   */
  function Set<V>(t: Table<V>, key: seq<byte>, v: V): (r: Table<V>)
    requires Valid(t)
    ensures Valid(r) && |r.slots| == |t.slots| && r.hash == t.hash
    ensures forall i :: 0 <= i < |t.slots| && i != SlotOf(t, key) ==> r.slots[i] == t.slots[i]
  {
    t.(slots := t.slots[SlotOf(t, key) := Full(key, v)])
  }

  /** `lru_evict(table, i)`: free slot `i`. */
  function Evict<V>(t: Table<V>, i: nat): (r: Table<V>)
    requires i < |t.slots|
    ensures |r.slots| == |t.slots| && r.hash == t.hash && r.slots[i].Empty?
    ensures forall j :: 0 <= j < |t.slots| && j != i ==> r.slots[j] == t.slots[j]
  {
    t.(slots := t.slots[i := Empty])
  }

  /** A value just stored is read back under its key, however full the table is. */
  lemma SetThenGet<V>(t: Table<V>, key: seq<byte>, v: V)
    requires Valid(t)
    ensures Get(Set(t, key, v), key) == Some(v)
  {
  }

  /**
    A store under one key leaves the answer for any other key as it was, or takes it
    away when the two keys share a slot: it never makes up an answer.
   */
  lemma SetOtherKey<V>(t: Table<V>, key: seq<byte>, v: V, other: seq<byte>)
    requires Valid(t) && other != key
    ensures Get(Set(t, key, v), other) == None || Get(Set(t, key, v), other) == Get(t, other)
  {
    var r := Set(t, key, v);
    assert SlotOf(r, other) == SlotOf(t, other);
    if SlotOf(t, other) != SlotOf(t, key) {
      assert r.slots[SlotOf(t, other)] == t.slots[SlotOf(t, other)];
    } else {
      assert r.slots[SlotOf(t, other)] == Full(key, v);
    }
  }

  /** A fresh table answers no key. */
  lemma InitMissing<V>(size: nat, hash: seq<byte> -> nat, key: seq<byte>)
    requires size > 0
    ensures Get(Init<V>(size, hash), key) == None
  {
  }

  /** The tables a sequence of stores builds from a fresh table, the newest store last. */
  function Fill<V>(size: nat, hash: seq<byte> -> nat, keys: seq<seq<byte>>, vals: seq<V>): (t: Table<V>)
    requires size > 0 && |keys| == |vals|
    ensures Valid(t) && |t.slots| == size && t.hash == hash
    decreases |keys|
  {
    if |keys| == 0 then Init(size, hash)
    else Set(Fill(size, hash, keys[..|keys| - 1], vals[..|vals| - 1]), keys[|keys| - 1], vals[|vals| - 1])
  }

  /** `v` is the value the last store under `key` put, in a series of stores. */
  ghost predicate LastStored<V>(keys: seq<seq<byte>>, vals: seq<V>, key: seq<byte>, v: V)
    requires |keys| == |vals|
  {
    exists j :: 0 <= j < |keys| && keys[j] == key && vals[j] == v && key !in keys[j + 1..]
  }

  lemma LastStoredNewest<V>(keys: seq<seq<byte>>, vals: seq<V>)
    requires |keys| == |vals| > 0
    ensures LastStored(keys, vals, keys[|keys| - 1], vals[|vals| - 1])
  {
    var n := |keys| - 1;
    assert keys[n + 1..] == [];
  }

  lemma LastStoredEarlier<V>(keys: seq<seq<byte>>, vals: seq<V>, key: seq<byte>, v: V)
    requires |keys| == |vals| > 0 && keys[|keys| - 1] != key
    requires LastStored(keys[..|keys| - 1], vals[..|vals| - 1], key, v)
    ensures LastStored(keys, vals, key, v)
  {
    var n := |keys| - 1;
    var j :| 0 <= j < n && keys[..n][j] == key && vals[..n][j] == v && key !in keys[..n][j + 1..];
    assert keys[j + 1..] == keys[..n][j + 1..] + [keys[n]];
  }

  /**
    One more store answers its own key with its value; any other key keeps the answer
    it had, or loses it.
   */
  lemma FillStep<V>(size: nat, hash: seq<byte> -> nat, keys: seq<seq<byte>>, vals: seq<V>, key: seq<byte>)
    requires size > 0 && |keys| == |vals| > 0
    ensures var n := |keys| - 1;
            var r := Get(Fill(size, hash, keys, vals), key);
            if key == keys[n] then r == Some(vals[n])
            else r == None || r == Get(Fill(size, hash, keys[..n], vals[..n]), key)
  {
    var n := |keys| - 1;
    var prev := Fill(size, hash, keys[..n], vals[..n]);
    assert Fill(size, hash, keys, vals) == Set(prev, keys[n], vals[n]);
    if key == keys[n] {
      SetThenGet(prev, keys[n], vals[n]);
    } else {
      SetOtherKey(prev, keys[n], vals[n], key);
    }
  }

  /**
    A filled table only ever answers with the value last stored under that very key;
    in particular a key never stored is missing.
   */
  lemma {:induction false} FillAnswersStored<V>(size: nat, hash: seq<byte> -> nat, keys: seq<seq<byte>>, vals: seq<V>, key: seq<byte>)
    requires size > 0 && |keys| == |vals|
    ensures var r := Get(Fill(size, hash, keys, vals), key);
            r.Some? ==> LastStored(keys, vals, key, r.value)
    ensures key !in keys ==> Get(Fill(size, hash, keys, vals), key) == None
    decreases |keys|
  {
    if |keys| > 0 {
      var n := |keys| - 1;
      FillStep(size, hash, keys, vals, key);
      FillAnswersStored(size, hash, keys[..n], vals[..n], key);
      var r := Get(Fill(size, hash, keys, vals), key);
      if key != keys[n] {
        if r.Some? {
          LastStoredEarlier(keys, vals, key, r.value);
        }
        assert key !in keys ==> key !in keys[..n];
      } else {
        LastStoredNewest(keys, vals);
      }
    }
  }

  /** The newest key is readable after every store, also once there are more keys than slots. */
  lemma FillNewestReadable<V>(size: nat, hash: seq<byte> -> nat, keys: seq<seq<byte>>, vals: seq<V>)
    requires size > 0 && |keys| == |vals| > 0
    ensures Get(Fill(size, hash, keys, vals), keys[|keys| - 1]) == Some(vals[|vals| - 1])
  {
    var n := |keys| - 1;
    SetThenGet(Fill(size, hash, keys[..n], vals[..n]), keys[n], vals[n]);
  }

  /**
    Keys are told apart by their length too: data stored under the first `len` bytes
    of a buffer is never answered for its first `len + 1` bytes (the same text with
    its terminating NUL, say), unless that longer key was stored as well.
   */
  lemma KeyLengthMatters<V>(size: nat, hash: seq<byte> -> nat, keys: seq<seq<byte>>, vals: seq<V>,
                            buf: seq<byte>, len: nat, v: V)
    requires size > 0 && |keys| == |vals| && len < |buf|
    requires KeyOf(buf, len + 1) !in keys
    ensures var t := Fill(size, hash, keys + [KeyOf(buf, len)], vals + [v]);
            Get(t, KeyOf(buf, len)) == Some(v) && Get(t, KeyOf(buf, len + 1)) == None
  {
    var ks := keys + [KeyOf(buf, len)];
    var vs := vals + [v];
    assert KeyOf(buf, len + 1) != KeyOf(buf, len);
    assert KeyOf(buf, len + 1) !in ks by {
      assert forall j :: 0 <= j < |keys| ==> ks[j] == keys[j];
    }
    FillAnswersStored(size, hash, ks, vs, KeyOf(buf, len + 1));
    assert ks[..|ks| - 1] == keys && vs[..|vs| - 1] == vals;
    FillNewestReadable(size, hash, ks, vs);
  }
}

=== FILE: lua.dfy ===
/**
  The slice of the embedded Lua runtime the daemon's C code relies on: dynamically typed
  values, tables as key/value entries in traversal order, raw assignment (`lua_rawset`,
  `lua_setfield`, `lua_rawseti`), `lua_rawlen`, and the `lua_tostring` /
  `lua_toboolean` conversions.
 */
module Lua {
  import opened Text
  import opened Wrappers

  /** Table keys: numbers and strings (the only keys the daemon's tables carry). */
  datatype Key = KNum(n: int) | KStr(s: string)

  /**
    A Lua value. Numbers are integral; `Other` stands for functions, userdata and
    threads, which the daemon never looks into.
   */
  datatype Value =
    | Nil
    | Boolean(b: bool)
    | Number(n: int)
    | Str(s: string)
    | Table(entries: seq<Entry>)
    | Other

  /** One table entry; a table's entries are listed in its traversal (`lua_next`) order. */
  datatype Entry = Entry(key: Key, val: Value)

  /** A table never holds the same key twice, and never holds `nil` as a value. */
  predicate DistinctKeys(es: seq<Entry>) {
    forall i, j :: 0 <= i < j < |es| ==> es[i].key != es[j].key
  }

  predicate NoNilValues(es: seq<Entry>) {
    forall i :: 0 <= i < |es| ==> !es[i].val.Nil?
  }

  predicate WellFormed(es: seq<Entry>) {
    DistinctKeys(es) && NoNilValues(es)
  }

  /** Position of the entry for `k`, or `|es|` when the table has none. */
  function IndexOfKey(es: seq<Entry>, k: Key): (i: nat)
    ensures i <= |es|
    ensures i < |es| ==> es[i].key == k
    ensures forall j :: 0 <= j < i ==> es[j].key != k
  {
    if |es| == 0 then 0 else if es[0].key == k then 0 else 1 + IndexOfKey(es[1..], k)
  }

  predicate HasKey(es: seq<Entry>, k: Key) {
    IndexOfKey(es, k) < |es|
  }

  /** `rawget(t, k)`: the value under `k`, `nil` when absent. */
  function Get(es: seq<Entry>, k: Key): Value {
    var i := IndexOfKey(es, k);
    if i < |es| then es[i].val else Nil
  }

  /**
    Raw assignment `t[k] = v`: an existing key keeps its place in the traversal and gets
    the new value, a new key goes last, and assigning `nil` removes the key.
   */
  function Set(es: seq<Entry>, k: Key, v: Value): seq<Entry> {
    var i := IndexOfKey(es, k);
    if i < |es| then
      (if v.Nil? then es[..i] + es[i + 1..] else es[i := Entry(k, v)])
    else
      (if v.Nil? then es else es + [Entry(k, v)])
  }

  /** The contract of `IndexOfKey` determines it: the first matching position. */
  lemma IndexOfKeyIs(es: seq<Entry>, k: Key, j: nat)
    requires j <= |es| && (j < |es| ==> es[j].key == k)
    requires forall m :: 0 <= m < j ==> es[m].key != k
    ensures IndexOfKey(es, k) == j
  {
  }

  /** Assignment reads back, leaves every other key alone and keeps a table well formed. */
  lemma SetGet(es: seq<Entry>, k: Key, v: Value)
    requires WellFormed(es)
    ensures Get(Set(es, k, v), k) == v
    ensures forall k' :: k' != k ==> Get(Set(es, k, v), k') == Get(es, k')
    ensures WellFormed(Set(es, k, v))
  {
    var i := IndexOfKey(es, k);
    if i < |es| && v.Nil? {
      SetGetRemove(es, k, v);
    } else if i < |es| {
      SetGetReplace(es, k, v);
    } else {
      SetGetAdd(es, k, v);
    }
  }

  /** Deleting entry `i` shifts the entries after it one place left. */
  lemma RemoveShape(es: seq<Entry>, i: nat)
    requires i < |es|
    ensures var r := es[..i] + es[i + 1..];
            && |r| == |es| - 1
            && (forall m :: 0 <= m < i ==> r[m] == es[m])
            && (forall m :: i <= m < |r| ==> r[m] == es[m + 1])
  {
  }

  lemma RemoveGetOther(es: seq<Entry>, k: Key, k': Key)
    requires WellFormed(es) && IndexOfKey(es, k) < |es| && k' != k
    ensures var i := IndexOfKey(es, k);
            Get(es[..i] + es[i + 1..], k') == Get(es, k')
  {
    var i := IndexOfKey(es, k);
    var j := IndexOfKey(es, k');
    if j < i {
      RemoveBefore(es, i, k', j);
    } else {
      assert j != i;
      RemoveAfter(es, i, k', j);
    }
  }

  lemma RemoveBefore(es: seq<Entry>, i: nat, k': Key, j: nat)
    requires j < i < |es| && IndexOfKey(es, k') == j
    ensures Get(es[..i] + es[i + 1..], k') == Get(es, k')
  {
    var r := es[..i] + es[i + 1..];
    RemoveShape(es, i);
    assert r[j] == es[j];
    assert forall m :: 0 <= m < j ==> r[m] == es[m];
    IndexOfKeyIs(r, k', j);
  }

  lemma RemoveAfter(es: seq<Entry>, i: nat, k': Key, j: nat)
    requires i < j <= |es| && IndexOfKey(es, k') == j && es[i].key != k'
    ensures Get(es[..i] + es[i + 1..], k') == Get(es, k')
  {
    var r := es[..i] + es[i + 1..];
    RemoveShape(es, i);
    forall m | 0 <= m < j - 1
      ensures r[m].key != k'
    {
      if m < i {
        assert r[m] == es[m];
      } else {
        assert r[m] == es[m + 1];
      }
    }
    if j < |es| {
      assert r[j - 1] == es[j];
    }
    IndexOfKeyIs(r, k', j - 1);
  }

  lemma RemoveGetSelf(es: seq<Entry>, k: Key)
    requires WellFormed(es) && IndexOfKey(es, k) < |es|
    ensures var i := IndexOfKey(es, k);
            var r := es[..i] + es[i + 1..];
            Get(r, k) == Nil && WellFormed(r)
  {
    var i := IndexOfKey(es, k);
    var r := es[..i] + es[i + 1..];
    RemoveShape(es, i);
    forall m | 0 <= m < |r|
      ensures r[m].key != k
    {
      if m >= i {
        assert r[m] == es[m + 1] && i < m + 1;
      }
    }
    IndexOfKeyIs(r, k, |r|);
    forall a, b | 0 <= a < b < |r|
      ensures r[a].key != r[b].key
    {
      var a' := if a < i then a else a + 1;
      var b' := if b < i then b else b + 1;
      assert r[a] == es[a'] && r[b] == es[b'] && a' < b';
    }
  }

  lemma SetGetRemove(es: seq<Entry>, k: Key, v: Value)
    requires WellFormed(es) && IndexOfKey(es, k) < |es| && v.Nil?
    ensures Get(Set(es, k, v), k) == v
    ensures forall k' :: k' != k ==> Get(Set(es, k, v), k') == Get(es, k')
    ensures WellFormed(Set(es, k, v))
  {
    var i := IndexOfKey(es, k);
    assert Set(es, k, v) == es[..i] + es[i + 1..];
    RemoveGetSelf(es, k);
    forall k' | k' != k
      ensures Get(Set(es, k, v), k') == Get(es, k')
    {
      RemoveGetOther(es, k, k');
    }
  }

  lemma ReplaceGet(es: seq<Entry>, k: Key, v: Value, k': Key)
    requires IndexOfKey(es, k) < |es|
    ensures var r := es[IndexOfKey(es, k) := Entry(k, v)];
            Get(r, k') == if k' == k then v else Get(es, k')
  {
    var i := IndexOfKey(es, k);
    var r := es[i := Entry(k, v)];
    if k' == k {
      IndexOfKeyIs(r, k, i);
    } else {
      IndexOfKeyIs(r, k', IndexOfKey(es, k'));
    }
  }

  lemma SetGetReplace(es: seq<Entry>, k: Key, v: Value)
    requires WellFormed(es) && IndexOfKey(es, k) < |es| && !v.Nil?
    ensures Get(Set(es, k, v), k) == v
    ensures forall k' :: k' != k ==> Get(Set(es, k, v), k') == Get(es, k')
    ensures WellFormed(Set(es, k, v))
  {
    var i := IndexOfKey(es, k);
    var r := es[i := Entry(k, v)];
    assert Set(es, k, v) == r;
    ReplaceGet(es, k, v, k);
    forall k' | k' != k
      ensures Get(r, k') == Get(es, k')
    {
      ReplaceGet(es, k, v, k');
    }
    assert forall m :: 0 <= m < |r| ==> r[m].key == es[m].key;
  }

  lemma AddGet(es: seq<Entry>, k: Key, v: Value, k': Key)
    requires IndexOfKey(es, k) == |es|
    ensures Get(es + [Entry(k, v)], k') == if k' == k then v else Get(es, k')
  {
    var r := es + [Entry(k, v)];
    if k' == k {
      IndexOfKeyIs(r, k, |es|);
    } else {
      var j := IndexOfKey(es, k');
      if j < |es| {
        IndexOfKeyIs(r, k', j);
      } else {
        IndexOfKeyIs(r, k', |r|);
      }
    }
  }

  lemma SetGetAdd(es: seq<Entry>, k: Key, v: Value)
    requires WellFormed(es) && IndexOfKey(es, k) == |es|
    ensures Get(Set(es, k, v), k) == v
    ensures forall k' :: k' != k ==> Get(Set(es, k, v), k') == Get(es, k')
    ensures WellFormed(Set(es, k, v))
  {
    if !v.Nil? {
      var r := es + [Entry(k, v)];
      assert Set(es, k, v) == r;
      AddGet(es, k, v, k);
      forall k' | k' != k
        ensures Get(r, k') == Get(es, k')
      {
        AddGet(es, k, v, k');
      }
    }
  }

  /** Keys `1, 2, …, n`, in that order: the shape `lua_rawseti(t, rawlen + 1, v)` builds. */
  predicate IsSequence(es: seq<Entry>) {
    forall i :: 0 <= i < |es| ==> es[i].key == KNum(i + 1)
  }

  function Border(es: seq<Entry>, n: nat): nat
    requires n <= |es|
    decreases |es| - n
  {
    if n < |es| && HasKey(es, KNum(n + 1)) then Border(es, n + 1) else n
  }

  /** `lua_rawlen(t)`: the length of the run of keys `1, 2, …` the table holds. */
  function RawLen(es: seq<Entry>): nat {
    Border(es, 0)
  }

  lemma {:induction false} BorderOfSequence(es: seq<Entry>, n: nat)
    requires IsSequence(es) && n <= |es|
    ensures Border(es, n) == |es|
    decreases |es| - n
  {
    if n < |es| {
      assert es[n].key == KNum(n + 1);
      assert HasKey(es, KNum(n + 1));
      BorderOfSequence(es, n + 1);
    }
  }

  lemma RawLenOfSequence(es: seq<Entry>)
    requires IsSequence(es)
    ensures RawLen(es) == |es|
  {
    BorderOfSequence(es, 0);
  }

  /** `lua_rawseti(t, lua_rawlen(t) + 1, v)`: append to the array part. */
  function Append(es: seq<Entry>, v: Value): seq<Entry> {
    Set(es, KNum(RawLen(es) + 1), v)
  }

  /** Appending a non-nil value to a sequence extends it by the next index. */
  lemma AppendToSequence(es: seq<Entry>, v: Value)
    requires IsSequence(es) && !v.Nil?
    ensures Append(es, v) == es + [Entry(KNum(|es| + 1), v)]
  {
    RawLenOfSequence(es);
    assert forall i :: 0 <= i < |es| ==> es[i].key != KNum(|es| + 1);
    assert IndexOfKey(es, KNum(|es| + 1)) == |es|;
  }

  /** `lua_isstring`: strings and numbers. */
  predicate IsStringLike(v: Value) {
    v.Str? || v.Number?
  }

  /** `lua_tostring`: the text of a string or a number, NULL for anything else. */
  function ToString(v: Value): (r: Option<string>)
    ensures r.Some? <==> IsStringLike(v)
  {
    match v
    case Str(s) => Some(s)
    case Number(n) => Some(IntToDecimal(n))
    case _ => None
  }

  /** `lua_isnumber`: numbers, and strings that convert to one. */
  predicate IsNumberLike(v: Value) {
    v.Number? || (v.Str? && IsIntegerNumeral(v.s))
  }

  /** `lua_toboolean`: only `nil` and `false` are false. */
  predicate ToBoolean(v: Value) {
    !(v.Nil? || v == Boolean(false))
  }
}

=== FILE: maintenance.dfy ===
/**
  The periodic maintenance of daemon/engine.c (`update_state`): walk the RTT table and
  evict every entry whose score is worse than `KR_NS_LONG`, so that servers that were
  slow for a while get another chance. The threshold comes from lib/nsrep.h, which is
  not part of this model, and is a parameter here.
 */
module Maintenance {
  import opened Wrappers
  import Lru
  import opened Text

  /** An entry is stale when its slot is taken and its score exceeds the threshold. */
  predicate Stale(s: Lru.Slot<nat>, long: nat) {
    s.Full? && s.data > long
  }

  /** The table the sweep should leave: stale slots freed, every other slot as it was. */
  function Swept(t: Lru.Table<nat>, long: nat): (r: Lru.Table<nat>)
    ensures |r.slots| == |t.slots| && r.hash == t.hash
  {
    t.(slots := seq(|t.slots|, i requires 0 <= i < |t.slots| =>
                      if Stale(t.slots[i], long) then Lru.Empty else t.slots[i]))
  }

  /**
    `update_state`: visit the slots in order, skip the free ones, and `lru_evict` each
    one whose score is above `long`.
   */
  method Sweep(t: Lru.Table<nat>, long: nat) returns (r: Lru.Table<nat>)
    ensures r == Swept(t, long)
    ensures |r.slots| == |t.slots| && r.hash == t.hash
    ensures forall i :: 0 <= i < |r.slots| && r.slots[i].Full? ==> r.slots[i].data <= long
    ensures forall i :: 0 <= i < |t.slots| && !Stale(t.slots[i], long) ==> r.slots[i] == t.slots[i]
    ensures forall i :: 0 <= i < |t.slots| && Stale(t.slots[i], long) ==> r.slots[i].Empty?
  {
    r := t;
    var i := 0;
    while i < |r.slots|
      invariant 0 <= i <= |t.slots| && |r.slots| == |t.slots| && r.hash == t.hash
      invariant forall j :: 0 <= j < i ==>
                  r.slots[j] == (if Stale(t.slots[j], long) then Lru.Empty else t.slots[j])
      invariant forall j :: i <= j < |t.slots| ==> r.slots[j] == t.slots[j]
    {
      if r.slots[i].Empty? {
        i := i + 1;
        continue;
      }
      if r.slots[i].data > long {
        r := Lru.Evict(r, i);
      }
      i := i + 1;
    }
  }

  /** After a sweep a key answers its old score if that was within the threshold, and nothing otherwise. */
  lemma SweptGet(t: Lru.Table<nat>, long: nat, key: seq<byte>)
    requires Lru.Valid(t)
    ensures Lru.Valid(Swept(t, long))
    ensures var before := Lru.Get<nat>(t, key);
            Lru.Get<nat>(Swept(t, long), key) == if before.Some? && before.value <= long then before else None
  {
    var r := Swept(t, long);
    assert Lru.SlotOf(r, key) == Lru.SlotOf(t, key);
  }

  /** A second sweep with the same threshold finds nothing left to evict. */
  lemma SweptIdempotent(t: Lru.Table<nat>, long: nat)
    ensures Swept(Swept(t, long), long) == Swept(t, long)
  {
    var r := Swept(t, long);
    assert Swept(r, long).slots == r.slots;
  }

  /** Raising the threshold never evicts more: what survives a strict sweep survives a lenient one. */
  lemma SweptMonotone(t: Lru.Table<nat>, strict: nat, lenient: nat, i: nat)
    requires strict <= lenient && i < |t.slots|
    ensures Swept(t, strict).slots[i].Full? ==> Swept(t, lenient).slots[i] == t.slots[i]
  {
  }
}

=== FILE: marshal.dfy ===
/**
  Marshalling between Lua values and JSON trees (daemon/engine.c): `l_pack_elem`
  turns a Lua value into a JSON tree, `l_unpack_json` rebuilds Lua values from a
  decoded tree, and `l_trampoline` uses both around a module's property callback,
  falling back to the raw reply text when it does not decode.
 */
module Marshal {
  import opened Wrappers
  import opened Text
  import L = Lua
  import J = Json

  /** `lua_tostring` of a table key: the name an object member gets. */
  function KeyText(k: L.Key): string {
    match k
    case KStr(s) => s
    case KNum(n) => IntToDecimal(n)
  }

  /**
    `l_pack_elem`: strings, numbers and booleans become the same JSON scalar and any
    other non-table becomes null. A table is classified by its first traversed key:
    a number makes it an array (keys dropped), anything else an object (keys rendered
    as text); an empty table is an empty object.
   */
  function Pack(v: L.Value): (j: J.Json)
    ensures v.Table? <==> (j.Array? || j.Object?)
    ensures j.Null? <==> (v.Nil? || v.Other?)
    ensures v.Str? ==> j == J.String(v.s)
    ensures v.Number? ==> j == J.Number(v.n)
    ensures v.Boolean? ==> j == J.Bool(v.b)
    ensures v.Table? && |v.entries| == 0 ==> j == J.Object([])
    ensures v.Table? && |v.entries| > 0 ==> (j.Array? <==> v.entries[0].key.KNum?)
    ensures j.Array? ==> |j.elems| == |v.entries|
    ensures j.Object? ==> |j.members| == |v.entries|
    decreases v
  {
    match v
    case Str(s) => J.String(s)
    case Number(n) => J.Number(n)
    case Boolean(b) => J.Bool(b)
    case Table(es) =>
      if |es| == 0 then J.Object([])
      else if es[0].key.KNum? then J.Array(PackElements(es))
      else J.Object(PackMembers(es))
    case _ => J.Null
  }

  /** The array children: every entry's value, in traversal order, keys dropped. */
  function PackElements(es: seq<L.Entry>): (js: seq<J.Json>)
    ensures |js| == |es|
    decreases es
  {
    if |es| == 0 then []
    else
      var e := es[0];
      assert e.val < e;
      [Pack(e.val)] + PackElements(es[1..])
  }

  /** The object children: every entry, in traversal order, keyed by its key's text. */
  function PackMembers(es: seq<L.Entry>): (ms: seq<J.Member>)
    ensures |ms| == |es|
    decreases es
  {
    if |es| == 0 then []
    else
      var e := es[0];
      assert e.val < e;
      [J.Member(KeyText(e.key), Pack(e.val))] + PackMembers(es[1..])
  }

  /** A packed array lists every entry's packed value in traversal order. */
  lemma {:induction false} PackElementsAt(es: seq<L.Entry>)
    ensures forall i :: 0 <= i < |es| ==> PackElements(es)[i] == Pack(es[i].val)
    decreases es
  {
    if |es| > 0 {
      PackElementsAt(es[1..]);
      assert forall i :: 1 <= i < |es| ==> es[1..][i - 1] == es[i];
    }
  }

  /** A packed object lists every entry, keyed by its key's text, in traversal order. */
  lemma {:induction false} PackMembersAt(es: seq<L.Entry>)
    ensures forall i :: 0 <= i < |es| ==>
              PackMembers(es)[i] == J.Member(KeyText(es[i].key), Pack(es[i].val))
    decreases es
  {
    if |es| > 0 {
      PackMembersAt(es[1..]);
      assert forall i :: 1 <= i < |es| ==> es[1..][i - 1] == es[i];
    }
  }

  /**
    `l_unpack_json`: scalars stay scalars; an array, an object or a top-level null
    becomes a table built child by child.
   */
  function Unpack(j: J.Json): (v: L.Value)
    ensures J.IsScalar(j) <==> !v.Table?
    ensures !v.Nil? && !v.Other?
    ensures j.String? ==> v == L.Str(j.s)
    ensures j.Number? ==> v == L.Number(j.n)
    ensures j.Bool? ==> v == L.Boolean(j.b)
    ensures j.Null? ==> v == L.Table([])
    decreases j
  {
    match j
    case String(s) => L.Str(s)
    case Number(n) => L.Number(n)
    case Bool(b) => L.Boolean(b)
    case Array(js) => L.Table(UnpackElements(js, []))
    case Object(ms) => L.Table(UnpackMembers(ms, []))
    case Null => L.Table([])
  }

  /**
    One step of the child loop of `l_unpack_json`: a null child is skipped, a keyed
    child is stored under its key (`lua_setfield`), an unkeyed one is stored at
    `lua_rawlen(t) + 1`.
   */
  function Insert(t: seq<L.Entry>, key: Option<string>, node: J.Json, value: L.Value): seq<L.Entry> {
    if node.Null? then t
    else if key.Some? then L.Set(t, L.KStr(key.value), value)
    else L.Append(t, value)
  }

  function UnpackElements(js: seq<J.Json>, t: seq<L.Entry>): seq<L.Entry>
    decreases js
  {
    if |js| == 0 then t else UnpackElements(js[1..], Insert(t, None, js[0], Unpack(js[0])))
  }

  function UnpackMembers(ms: seq<J.Member>, t: seq<L.Entry>): seq<L.Entry>
    decreases ms
  {
    if |ms| == 0 then t
    else UnpackMembers(ms[1..], Insert(t, Some(ms[0].key), ms[0].val, Unpack(ms[0].val)))
  }

  // ---------------------------------------------------------------------------
  // Reference descriptions of the tables `Unpack` builds

  function NonNull(js: seq<J.Json>): (r: seq<J.Json>)
    ensures |r| <= |js|
    ensures forall i :: 0 <= i < |r| ==> !r[i].Null?
  {
    if |js| == 0 then []
    else if js[0].Null? then NonNull(js[1..])
    else [js[0]] + NonNull(js[1..])
  }

  function UnpackAll(js: seq<J.Json>): (vs: seq<L.Value>)
    ensures |vs| == |js|
  {
    seq(|js|, i requires 0 <= i < |js| => Unpack(js[i]))
  }

  /** The table `{v1, v2, …}`: values under keys 1, 2, … in order. */
  function Numbered(vs: seq<L.Value>): (es: seq<L.Entry>)
    ensures |es| == |vs| && L.IsSequence(es)
  {
    seq(|vs|, i requires 0 <= i < |vs| => L.Entry(L.KNum(i + 1), vs[i]))
  }

  /** Appending a value at `lua_rawlen + 1` to the table `{v1, …, vn}` gives `{v1, …, vn, v}`. */
  lemma AppendNumbered(vs: seq<L.Value>, v: L.Value)
    requires forall i :: 0 <= i < |vs| ==> !vs[i].Nil?
    requires !v.Nil?
    ensures L.Append(Numbered(vs), v) == Numbered(vs + [v])
  {
    L.AppendToSequence(Numbered(vs), v);
    assert Numbered(vs) + [L.Entry(L.KNum(|vs| + 1), v)] == Numbered(vs + [v]);
  }

  /** The value the last non-null member named `k` carries; a later member wins. */
  function LastNonNull(ms: seq<J.Member>, k: string): Option<J.Json> {
    if |ms| == 0 then None
    else
      var later := LastNonNull(ms[1..], k);
      if later.Some? then later
      else if ms[0].key == k && !ms[0].val.Null? then Some(ms[0].val)
      else None
  }

  predicate StringKeys(es: seq<L.Entry>) {
    forall i :: 0 <= i < |es| ==> es[i].key.KStr?
  }

  lemma {:induction false} UnpackElementsNumbered(js: seq<J.Json>, vs: seq<L.Value>)
    requires forall i :: 0 <= i < |vs| ==> !vs[i].Nil?
    ensures UnpackElements(js, Numbered(vs)) == Numbered(vs + UnpackAll(NonNull(js)))
    decreases js
  {
    if |js| == 0 {
      assert vs + UnpackAll(NonNull(js)) == vs;
    } else if js[0].Null? {
      UnpackElementsNumbered(js[1..], vs);
    } else {
      var v := Unpack(js[0]);
      AppendNumbered(vs, v);
      UnpackElementsNumbered(js[1..], vs + [v]);
      assert NonNull(js) == [js[0]] + NonNull(js[1..]);
      assert UnpackAll(NonNull(js)) == [v] + UnpackAll(NonNull(js[1..]));
      assert vs + [v] + UnpackAll(NonNull(js[1..])) == vs + UnpackAll(NonNull(js));
    }
  }

  /**
    An array becomes the table `{v1, v2, …}` of its unpacked non-null children in
    document order: null children leave no gap.
   */
  lemma UnpackArray(js: seq<J.Json>)
    ensures Unpack(J.Array(js)) == L.Table(Numbered(UnpackAll(NonNull(js))))
  {
    UnpackElementsNumbered(js, []);
    assert Numbered([]) == [];
  }

  lemma {:induction false} UnpackMembersGet(ms: seq<J.Member>, t: seq<L.Entry>, k: L.Key)
    requires L.WellFormed(t) && StringKeys(t)
    ensures L.WellFormed(UnpackMembers(ms, t)) && StringKeys(UnpackMembers(ms, t))
    ensures k.KStr? && LastNonNull(ms, k.s).Some? ==>
              L.Get(UnpackMembers(ms, t), k) == Unpack(LastNonNull(ms, k.s).value)
    ensures !(k.KStr? && LastNonNull(ms, k.s).Some?) ==>
              L.Get(UnpackMembers(ms, t), k) == L.Get(t, k)
    decreases ms
  {
    if |ms| > 0 {
      var t' := Insert(t, Some(ms[0].key), ms[0].val, Unpack(ms[0].val));
      if !ms[0].val.Null? {
        L.SetGet(t, L.KStr(ms[0].key), Unpack(ms[0].val));
        var s := L.Set(t, L.KStr(ms[0].key), Unpack(ms[0].val));
        forall i | 0 <= i < |s|
          ensures s[i].key.KStr?
        {
          var p := L.IndexOfKey(t, L.KStr(ms[0].key));
          if p == |t| && i == |t| {
            assert s[i].key == L.KStr(ms[0].key);
          }
        }
      }
      UnpackMembersGet(ms[1..], t', k);
    }
  }

  /**
    An object becomes a table with string keys only, in which each name holds the
    unpacked value of the last non-null member of that name; null members are skipped.
   */
  lemma UnpackObject(ms: seq<J.Member>, k: L.Key)
    ensures Unpack(J.Object(ms)).Table?
    ensures L.WellFormed(Unpack(J.Object(ms)).entries)
    ensures StringKeys(Unpack(J.Object(ms)).entries)
    ensures L.Get(Unpack(J.Object(ms)).entries, k) ==
              if k.KStr? && LastNonNull(ms, k.s).Some? then Unpack(LastNonNull(ms, k.s).value)
              else L.Nil
  {
    UnpackMembersGet(ms, [], k);
  }

  /** The table `{name1 = v1, …}` an object with distinct names and no nulls becomes. */
  function Keyed(ms: seq<J.Member>): (es: seq<L.Entry>)
    ensures |es| == |ms|
  {
    seq(|ms|, i requires 0 <= i < |ms| => L.Entry(L.KStr(ms[i].key), Unpack(ms[i].val)))
  }

  lemma {:induction false} UnpackDistinctMembers(ms: seq<J.Member>, n: nat)
    requires J.DistinctMemberKeys(ms) && n <= |ms|
    requires forall i :: 0 <= i < |ms| ==> !ms[i].val.Null?
    ensures UnpackMembers(ms[n..], Keyed(ms)[..n]) == Keyed(ms)
    decreases |ms| - n
  {
    if n < |ms| {
      var es := Keyed(ms);
      var k := L.KStr(ms[n].key);
      assert forall i :: 0 <= i < n ==> es[..n][i].key != k;
      L.IndexOfKeyIs(es[..n], k, n);
      assert L.Set(es[..n], k, Unpack(ms[n].val)) == es[..n + 1];
      assert ms[n..][1..] == ms[n + 1..];
      UnpackDistinctMembers(ms, n + 1);
    } else {
      assert Keyed(ms)[..n] == Keyed(ms);
    }
  }

  // ---------------------------------------------------------------------------
  // Round trips

  /** Values that survive a trip through JSON unchanged. */
  predicate Canonical(v: L.Value) {
    match v
    case Boolean(_) => true
    case Number(_) => true
    case Str(_) => true
    case Table(es) =>
      && (L.IsSequence(es) || (StringKeys(es) && L.DistinctKeys(es)))
      && forall i :: 0 <= i < |es| ==> Canonical(es[i].val)
    case _ => false
  }

  /** Trees that survive a trip through Lua unchanged. */
  predicate CanonicalJson(j: J.Json) {
    match j
    case Null => false
    case Array(js) => |js| > 0 && forall i :: 0 <= i < |js| ==> CanonicalJson(js[i])
    case Object(ms) =>
      && J.DistinctMemberKeys(ms)
      && forall i :: 0 <= i < |ms| ==> CanonicalJson(ms[i].val)
    case _ => true
  }

  /** Packing then unpacking gives back every value a sequence or a string-keyed record. */
  lemma {:induction false} UnpackPack(v: L.Value)
    requires Canonical(v)
    ensures Unpack(Pack(v)) == v
    decreases v
  {
    match v
    case Table(es) =>
      forall i | 0 <= i < |es|
        ensures Unpack(Pack(es[i].val)) == es[i].val
      {
        UnpackPack(es[i].val);
      }
      if |es| == 0 {
      } else if es[0].key.KNum? {
        UnpackPackSequence(es);
      } else {
        UnpackPackRecord(es);
      }
    case _ =>
  }

  lemma UnpackPackSequence(es: seq<L.Entry>)
    requires |es| > 0 && es[0].key.KNum? && L.IsSequence(es)
    requires forall i :: 0 <= i < |es| ==> !es[i].val.Nil? && !es[i].val.Other?
    requires forall i :: 0 <= i < |es| ==> Unpack(Pack(es[i].val)) == es[i].val
    ensures Unpack(Pack(L.Table(es))) == L.Table(es)
  {
    var js := PackElements(es);
    PackElementsAt(es);
    assert NonNull(js) == js by { NonNullOfNonNull(js); }
    UnpackArray(js);
    assert Numbered(UnpackAll(js)) == es;
  }

  lemma UnpackPackRecord(es: seq<L.Entry>)
    requires |es| > 0 && !es[0].key.KNum? && StringKeys(es) && L.DistinctKeys(es)
    requires forall i :: 0 <= i < |es| ==> !es[i].val.Nil? && !es[i].val.Other?
    requires forall i :: 0 <= i < |es| ==> Unpack(Pack(es[i].val)) == es[i].val
    ensures Unpack(Pack(L.Table(es))) == L.Table(es)
  {
    var ms := PackMembers(es);
    PackMembersAt(es);
    assert J.DistinctMemberKeys(ms) by {
      forall a, b | 0 <= a < b < |ms|
        ensures ms[a].key != ms[b].key
      {
        assert es[a].key != es[b].key;
      }
    }
    UnpackDistinctMembers(ms, 0);
    assert ms[0..] == ms;
    assert Keyed(ms) == es;
  }

  lemma {:induction false} NonNullOfNonNull(js: seq<J.Json>)
    requires forall i :: 0 <= i < |js| ==> !js[i].Null?
    ensures NonNull(js) == js
    decreases js
  {
    if |js| > 0 {
      NonNullOfNonNull(js[1..]);
    }
  }

  /** Unpacking then packing gives back every null-free tree with distinct names and no empty array. */
  lemma {:induction false} PackUnpack(j: J.Json)
    requires CanonicalJson(j)
    ensures Pack(Unpack(j)) == j
    decreases j
  {
    match j
    case Array(js) =>
      forall i | 0 <= i < |js|
        ensures Pack(Unpack(js[i])) == js[i]
      {
        PackUnpack(js[i]);
      }
      NonNullOfNonNull(js);
      UnpackArray(js);
      var es := Numbered(UnpackAll(js));
      assert es[0].key.KNum?;
      PackElementsAt(es);
      assert PackElements(es) == js;
    case Object(ms) =>
      forall i | 0 <= i < |ms|
        ensures Pack(Unpack(ms[i].val)) == ms[i].val
      {
        PackUnpack(ms[i].val);
      }
      UnpackDistinctMembers(ms, 0);
      assert ms[0..] == ms;
      var es := Keyed(ms);
      if |ms| > 0 {
        PackMembersAt(es);
        assert PackMembers(es) == ms;
      }
    case _ =>
  }

  /** A property reply `{"ok": true, "count": 3}` reads back as booleans and numbers under its names. */
  lemma OkCountReply()
    ensures var t := Unpack(J.Object([J.Member("ok", J.Bool(true)), J.Member("count", J.Number(3))]));
            L.Get(t.entries, L.KStr("ok")) == L.Boolean(true) &&
            L.Get(t.entries, L.KStr("count")) == L.Number(3)
  {
    var ms := [J.Member("ok", J.Bool(true)), J.Member("count", J.Number(3))];
    UnpackObject(ms, L.KStr("ok"));
    UnpackObject(ms, L.KStr("count"));
    assert LastNonNull(ms, "ok") == Some(J.Bool(true));
    assert LastNonNull(ms, "count") == Some(J.Number(3));
  }

  // ---------------------------------------------------------------------------
  // Packing at an absolute stack slot

  /**
    `l_pack_elem(L, top)` reads the table at slot `top` and, for each entry, the key at
    slot `top + 1` and the value at slot `top + 2` of the stack `lua_next` has grown by
    the pair. Those are the pair itself only when `top` is the top of the stack; the
    functions below model the stack (`s`, slot `p` counted from 0) to say what happens
    otherwise.
   */

  /** Nesting depth of a value: 0 for anything but a table. */
  function Depth(v: L.Value): nat
    decreases v
  {
    match v
    case Table(es) => 1 + MaxDepth(es)
    case _ => 0
  }

  function MaxDepth(es: seq<L.Entry>): nat
    decreases es
  {
    if |es| == 0 then 0
    else
      var e := es[0];
      assert e.val < e;
      var rest := MaxDepth(es[1..]);
      if Depth(e.val) > rest then Depth(e.val) else rest
  }

  lemma {:induction false} MaxDepthBounds(es: seq<L.Entry>, i: nat)
    requires i < |es|
    ensures Depth(es[i].val) <= MaxDepth(es)
    decreases es
  {
    if i > 0 {
      MaxDepthBounds(es[1..], i - 1);
      assert es[1..][i - 1] == es[i];
    }
  }

  /** The depths of a run of stack slots, added up. */
  function StackDepth(s: seq<L.Value>): nat
    decreases s
  {
    if |s| == 0 then 0 else Depth(s[0]) + StackDepth(s[1..])
  }

  lemma {:induction false} StackDepthAppend(a: seq<L.Value>, b: seq<L.Value>)
    ensures StackDepth(a + b) == StackDepth(a) + StackDepth(b)
    decreases a
  {
    if |a| > 0 {
      assert (a + b)[1..] == a[1..] + b;
      StackDepthAppend(a[1..], b);
    } else {
      assert a + b == b;
    }
  }

  /** A table key as the value `lua_next` pushes for it. */
  function KeyValue(k: L.Key): (v: L.Value)
    ensures L.ToString(v) == Some(KeyText(k))
    ensures v.Number? <==> k.KNum?
  {
    match k
    case KNum(n) => L.Number(n)
    case KStr(s) => L.Str(s)
  }

  /** The stack while `lua_next` has an entry's key and value pushed. */
  function Pushed(s: seq<L.Value>, e: L.Entry): (t: seq<L.Value>)
    ensures |t| == |s| + 2 && t[..|s|] == s
    ensures t[|s|] == KeyValue(e.key) && t[|s| + 1] == e.val
  {
    s + [KeyValue(e.key), e.val]
  }

  /**
    The slots from `p + 2` up of the grown stack weigh less than the slots from `p` up
    of the old one: the table at `p` gives way to one of its values.
   */
  lemma WindowShrinks(s: seq<L.Value>, p: nat, i: nat)
    requires p < |s| && s[p].Table? && i < |s[p].entries|
    ensures StackDepth(Pushed(s, s[p].entries[i])[p + 2..]) < StackDepth(s[p..])
  {
    var e := s[p].entries[i];
    var t := Pushed(s, e);
    MaxDepthBounds(s[p].entries, i);
    assert Depth(e.val) < Depth(s[p]);
    assert s[p..][0] == s[p] && s[p..][1..] == s[p + 1..];
    if p + 1 == |s| {
      assert t[p + 2..] == [e.val];
      assert StackDepth([e.val]) == Depth(e.val) + StackDepth([]);
    } else {
      assert t[p + 2..] == s[p + 2..] + [KeyValue(e.key), e.val];
      StackDepthAppend(s[p + 2..], [KeyValue(e.key), e.val]);
      assert StackDepth([KeyValue(e.key), e.val]) == Depth(e.val) by {
        assert [KeyValue(e.key), e.val][1..] == [e.val];
        assert StackDepth([e.val]) == Depth(e.val) + StackDepth([]);
        assert Depth(KeyValue(e.key)) == 0;
      }
      assert s[p + 1..][0] == s[p + 1] && s[p + 1..][1..] == s[p + 2..];
    }
  }

  /**
    `l_pack_elem` on the stack `s` at slot `p`. A non-table packs as `Pack` does. A
    table is an array when the slot above it holds a number while its first entry is
    pushed, an object otherwise; each element is packed from the slot two above it, and
    each member is named by `lua_tostring` of the slot above it. `None` is a member name
    `lua_tostring` gives as NULL, which `json_append_member` cannot take.
   */
  function PackAt(s: seq<L.Value>, p: nat): (r: Option<J.Json>)
    requires p < |s|
    ensures !s[p].Table? ==> r == Some(Pack(s[p]))
    ensures s[p].Table? && r.Some? ==> r.value.Array? || r.value.Object?
    decreases StackDepth(s[p..]), 1, 0
  {
    match s[p]
    case Table(es) =>
      if |es| == 0 then Some(J.Object([]))
      else if Pushed(s, es[0])[p + 1].Number? then
        var js := ElementsAt(s, p, 0);
        if js.Some? then Some(J.Array(js.value)) else None
      else
        var ms := MembersAt(s, p, 0);
        if ms.Some? then Some(J.Object(ms.value)) else None
    case _ => Some(Pack(s[p]))
  }

  /** The array children packed from entry `i` on. */
  function ElementsAt(s: seq<L.Value>, p: nat, i: nat): Option<seq<J.Json>>
    requires p < |s| && s[p].Table? && i <= |s[p].entries|
    decreases StackDepth(s[p..]), 0, |s[p].entries| - i
  {
    if i == |s[p].entries| then Some([])
    else
      var t := Pushed(s, s[p].entries[i]);
      WindowShrinks(s, p, i);
      var j := PackAt(t, p + 2);
      var js := ElementsAt(s, p, i + 1);
      if j.Some? && js.Some? then Some([j.value] + js.value) else None
  }

  /** The object children packed from entry `i` on. */
  function MembersAt(s: seq<L.Value>, p: nat, i: nat): Option<seq<J.Member>>
    requires p < |s| && s[p].Table? && i <= |s[p].entries|
    decreases StackDepth(s[p..]), 0, |s[p].entries| - i
  {
    if i == |s[p].entries| then Some([])
    else
      var t := Pushed(s, s[p].entries[i]);
      WindowShrinks(s, p, i);
      var key := L.ToString(t[p + 1]);
      var j := PackAt(t, p + 2);
      var ms := MembersAt(s, p, i + 1);
      if key.Some? && j.Some? && ms.Some? then Some([J.Member(key.value, j.value)] + ms.value)
      else None
  }

  /**
    With the value on top of the stack, as in every nested call of a one-argument
    packing, `l_pack_elem` packs exactly as `Pack` describes.
   */
  lemma {:induction false} PackAtTop(s: seq<L.Value>)
    requires |s| > 0
    ensures PackAt(s, |s| - 1) == Some(Pack(s[|s| - 1]))
    decreases s[|s| - 1], 1, 0
  {
    var p := |s| - 1;
    match s[p]
    case Table(es) =>
      if |es| > 0 {
        assert Pushed(s, es[0])[p + 1] == KeyValue(es[0].key);
        if es[0].key.KNum? {
          ElementsAtTop(s, 0);
          assert es[0..] == es;
        } else {
          MembersAtTop(s, 0);
          assert es[0..] == es;
        }
      }
    case _ =>
  }

  lemma {:induction false} ElementsAtTop(s: seq<L.Value>, i: nat)
    requires |s| > 0 && s[|s| - 1].Table? && i <= |s[|s| - 1].entries|
    ensures ElementsAt(s, |s| - 1, i) == Some(PackElements(s[|s| - 1].entries[i..]))
    decreases s[|s| - 1], 0, |s[|s| - 1].entries| - i
  {
    var es := s[|s| - 1].entries;
    if i < |es| {
      var e := es[i];
      var t := Pushed(s, e);
      assert e.val < s[|s| - 1] by { assert e.val < e; }
      assert t[|t| - 1] == e.val;
      PackAtTop(t);
      ElementsAtTop(s, i + 1);
      assert es[i..][0] == e && es[i..][1..] == es[i + 1..];
    }
  }

  lemma {:induction false} MembersAtTop(s: seq<L.Value>, i: nat)
    requires |s| > 0 && s[|s| - 1].Table? && i <= |s[|s| - 1].entries|
    ensures MembersAt(s, |s| - 1, i) == Some(PackMembers(s[|s| - 1].entries[i..]))
    decreases s[|s| - 1], 0, |s[|s| - 1].entries| - i
  {
    var es := s[|s| - 1].entries;
    if i < |es| {
      var e := es[i];
      var t := Pushed(s, e);
      assert e.val < s[|s| - 1] by { assert e.val < e; }
      assert t[|t| - 1] == e.val;
      assert t[|s|] == KeyValue(e.key);
      PackAtTop(t);
      MembersAtTop(s, i + 1);
      assert es[i..][0] == e && es[i..][1..] == es[i + 1..];
    }
  }

  // ---------------------------------------------------------------------------
  // The module-call trampoline

  /** Which entry point a published module closure wraps. */
  datatype Callback = Config | Property

  /** What a callback returned: its text and what the JSON decoder made of it. */
  datatype Reply = Reply(text: string, decoded: Option<J.Json>)

  /** The argument text a callback receives: an encoded table or plain text. */
  datatype ArgText = Encoded(tree: J.Json) | Plain(s: string)

  /**
    Argument preparation in `l_trampoline`, packing the first argument as a table on
    its own: no argument or one that is neither a table nor string-like is passed as
    NULL; a table is packed to JSON; a string or number is passed as text. The code as
    written packs from slot 1 of the whole argument stack (`PackAt`), which agrees with
    this for a single argument only (`PackArgumentsMixedUp`).
   */
  function CallArgument(args: seq<L.Value>): (a: Option<ArgText>)
    ensures |args| == 0 ==> a.None?
    ensures |args| > 0 && args[0].Table? ==> a == Some(Encoded(Pack(args[0])))
    ensures |args| > 0 && args[0].Table? ==> Some(a.value.tree) == PackAt([args[0]], 0)
    ensures |args| == 1 && args[0].Table? ==> Some(a.value.tree) == PackAt(args, 0)
    ensures |args| > 0 && args[0].Table? && Canonical(args[0]) ==> Unpack(a.value.tree) == args[0]
    ensures |args| > 0 && !args[0].Table? ==>
              (a.Some? <==> L.IsStringLike(args[0])) &&
              (a.Some? ==> a.value == Plain(L.ToString(args[0]).value))
  {
    if |args| == 0 then None
    else if args[0].Table? then
      PackAtTop([args[0]]);
      PackedReadsBack(args[0]);
      assert |args| == 1 ==> args == [args[0]];
      Some(Encoded(Pack(args[0])))
    else match L.ToString(args[0])
      case Some(s) => Some(Plain(s))
      case None => None
  }

  lemma PackedReadsBack(v: L.Value)
    ensures Canonical(v) ==> Unpack(Pack(v)) == v
  {
    if Canonical(v) {
      UnpackPack(v);
    }
  }

  /**
    With a second argument, `l_pack_elem(L, 1)` reads the argument slots instead of
    the pair `lua_next` pushed: `{10, 20}` followed by `"x"` packs as an object naming
    both entries `x` and holding their keys, `{a = 1}` followed by `7` packs as the
    array `["a"]`, and `{a = 1}` followed by `true` has no member name at all.
   */
  lemma PackArgumentsMixedUp()
    ensures var t := L.Table([L.Entry(L.KNum(1), L.Number(10)), L.Entry(L.KNum(2), L.Number(20))]);
            && PackAt([t, L.Str("x")], 0) == Some(J.Object([J.Member("x", J.Number(1)), J.Member("x", J.Number(2))]))
            && Pack(t) == J.Array([J.Number(10), J.Number(20)])
    ensures var t := L.Table([L.Entry(L.KStr("a"), L.Number(1))]);
            && PackAt([t, L.Number(7)], 0) == Some(J.Array([J.String("a")]))
            && PackAt([t, L.Boolean(true)], 0) == None
            && Pack(t) == J.Object([J.Member("a", J.Number(1))])
  {
    MixedUpAsObject();
    MixedUpAsArray();
    MixedUpWithoutName();
  }

  lemma MixedUpAsObject()
    ensures var t := L.Table([L.Entry(L.KNum(1), L.Number(10)), L.Entry(L.KNum(2), L.Number(20))]);
            PackAt([t, L.Str("x")], 0) == Some(J.Object([J.Member("x", J.Number(1)), J.Member("x", J.Number(2))]))
  {
    var t := L.Table([L.Entry(L.KNum(1), L.Number(10)), L.Entry(L.KNum(2), L.Number(20))]);
    var s := [t, L.Str("x")];
    assert MembersAt(s, 0, 2) == Some([]);
    assert PackAt(Pushed(s, t.entries[1]), 2) == Some(J.Number(2));
    assert L.ToString(Pushed(s, t.entries[1])[1]) == Some("x");
    assert [J.Member("x", J.Number(2))] + [] == [J.Member("x", J.Number(2))];
    assert MembersAt(s, 0, 1) == Some([J.Member("x", J.Number(2))]);
    assert PackAt(Pushed(s, t.entries[0]), 2) == Some(J.Number(1));
    assert L.ToString(Pushed(s, t.entries[0])[1]) == Some("x");
    assert [J.Member("x", J.Number(1))] + [J.Member("x", J.Number(2))]
        == [J.Member("x", J.Number(1)), J.Member("x", J.Number(2))];
  }

  lemma MixedUpAsArray()
    ensures var t := L.Table([L.Entry(L.KStr("a"), L.Number(1))]);
            PackAt([t, L.Number(7)], 0) == Some(J.Array([J.String("a")]))
  {
    var u := L.Table([L.Entry(L.KStr("a"), L.Number(1))]);
    var s2 := [u, L.Number(7)];
    assert ElementsAt(s2, 0, 1) == Some([]);
    assert PackAt(Pushed(s2, u.entries[0]), 2) == Some(J.String("a"));
    assert [J.String("a")] + [] == [J.String("a")];
  }

  lemma MixedUpWithoutName()
    ensures var t := L.Table([L.Entry(L.KStr("a"), L.Number(1))]);
            PackAt([t, L.Boolean(true)], 0) == None
  {
    var u := L.Table([L.Entry(L.KStr("a"), L.Number(1))]);
    var s3 := [u, L.Boolean(true)];
    assert L.ToString(Pushed(s3, u.entries[0])[1]) == None;
  }

  /** Lenient decoding: the unpacked tree when the text decodes, else the raw text. */
  function DecodeReply(r: Reply): L.Value {
    match r.decoded
    case Some(j) => Unpack(j)
    case None => L.Str(r.text)
  }

  /**
    The result `l_trampoline` leaves to Lua: none for the configuration entry point or
    for a property that returned NULL, otherwise the leniently decoded reply.
   */
  function Trampoline(cb: Callback, reply: Option<Reply>): (r: Option<L.Value>)
    ensures r.Some? <==> cb.Property? && reply.Some?
    ensures r.Some? && reply.value.decoded.None? ==> r.value == L.Str(reply.value.text)
    ensures r.Some? && reply.value.decoded.Some? ==> r.value == Unpack(reply.value.decoded.value)
  {
    if cb.Config? then None
    else match reply
      case None => None
      case Some(rep) => Some(DecodeReply(rep))
  }

  /** A property that replies with the JSON form of a canonical value hands that very value back to Lua. */
  lemma TrampolineReturnsPacked(v: L.Value, text: string)
    requires Canonical(v)
    ensures Trampoline(Property, Some(Reply(text, Some(Pack(v))))) == Some(v)
  {
    UnpackPack(v);
  }
}

=== FILE: options.dfy ===
/**
  The `option(name[, value])` call of daemon/engine.c (`l_option`): read, set or clear
  one query flag in the resolver's default options word.
 */
module Options {
  import opened Wrappers
  import L = Lua
  import F = QueryFlags

  const INVALID_NAME: string := "invalid option name"

  /**
    A 32-bit options word, as the set of positions of its 1 bits: position `i` stands
    for the value `1 << i`, so `|` is union, `& ~` is difference and `&` is intersection.
   */
  type Word = set<nat>

  /** The options word after the call, and what the call returns: whether the flag is set. */
  datatype OptionState = OptionState(options: Word, isSet: bool)

  /**
    The bits the name argument selects. A string (or number) is looked up in the name
    table and must be found, giving its one flag bit; any other argument selects no bit
    at all (the code stays 0).
   */
  function OptionCode(name: L.Value): (r: Result<Word, string>)
    ensures r.Failure? <==> L.IsStringLike(name) && L.ToString(name).value !in F.NAMES
    ensures r.Success? && !L.IsStringLike(name) ==> r.value == {}
    ensures r.Success? && L.IsStringLike(name) ==>
              exists i :: 0 <= i < F.COUNT && F.NAMES[i] == L.ToString(name).value && r.value == {i}
  {
    if L.IsStringLike(name) then
      match F.Position(L.ToString(name).value)
      case None => Failure(INVALID_NAME)
      case Some(i) => Success({i})
    else
      Success({})
  }

  /** A value argument that changes the flag: a boolean, or something `lua_isnumber` accepts. */
  predicate Assigns(value: L.Value) {
    value.Boolean? || L.IsNumberLike(value)
  }

  /**
    `l_option`: a truthy assigning value ORs the selected bits in, a falsy one masks
    them out, any other value leaves the word alone; the call reports whether the
    selected bits are now (partly) set.
   */
  function SetOption(options: Word, name: L.Value, value: L.Value): (r: Result<OptionState, string>)
    ensures r.Failure? <==> L.IsStringLike(name) && L.ToString(name).value !in F.NAMES
    ensures r.Failure? ==> r.error == INVALID_NAME && r == Failure(INVALID_NAME)
  {
    match OptionCode(name)
    case Failure(e) => Failure(e)
    case Success(code) =>
      var word :=
        if Assigns(value) then (if L.ToBoolean(value) then options + code else options - code)
        else options;
      Success(OptionState(word, word * code != {}))
  }

  /**
    With a known flag name, setting turns exactly that bit on and clearing turns exactly
    that bit off; every other bit of the word is kept, and the result reports the bit.
   */
  lemma SetOptionNamed(options: Word, i: nat, value: L.Value)
    requires i < F.COUNT
    ensures var r := SetOption(options, L.Str(F.NAMES[i]), value);
            && r.Success?
            && (forall b :: b != i ==> (b in r.value.options <==> b in options))
            && (Assigns(value) && L.ToBoolean(value) ==> i in r.value.options)
            && (Assigns(value) && !L.ToBoolean(value) ==> i !in r.value.options)
            && (!Assigns(value) ==> r.value.options == options)
            && (r.value.isSet <==> i in r.value.options)
  {
    F.PositionOfName(i);
    var r := SetOption(options, L.Str(F.NAMES[i]), value);
    assert OptionCode(L.Str(F.NAMES[i])) == Success({i});
    assert r.value.isSet <==> i in r.value.options by {
      assert i in r.value.options ==> i in r.value.options * {i};
    }
  }

  /** A name that is neither a string nor a number selects nothing: the word is kept and the answer is false. */
  lemma SetOptionUnnamed(options: Word, name: L.Value, value: L.Value)
    requires !L.IsStringLike(name)
    ensures SetOption(options, name, value) == Success(OptionState(options, false))
  {
    assert options + {} == options - {} == options;
    assert options * {} == {};
  }

  /** Setting a flag and clearing it again gives back the word with that flag off. */
  lemma SetThenClear(options: Word, i: nat)
    requires i < F.COUNT
    ensures var n := L.Str(F.NAMES[i]);
            var on := SetOption(options, n, L.Boolean(true));
            && on.Success?
            && var cleared := SetOption(on.value.options, n, L.Boolean(false));
            && cleared.Success?
            && cleared.value.options == options - {i}
            && (i !in options ==> cleared.value.options == options)
  {
    SetOptionNamed(options, i, L.Boolean(true));
    var on := SetOption(options, L.Str(F.NAMES[i]), L.Boolean(true));
    SetOptionNamed(on.value.options, i, L.Boolean(false));
    var cleared := SetOption(on.value.options, L.Str(F.NAMES[i]), L.Boolean(false));
    assert cleared.value.options == options - {i};
  }

  /** Lua truthiness: the number 0 sets a flag, only `false` clears it. */
  lemma ZeroSets(options: Word, i: nat)
    requires i < F.COUNT
    ensures var r := SetOption(options, L.Str(F.NAMES[i]), L.Number(0));
            r.Success? && r.value.isSet
  {
    SetOptionNamed(options, i, L.Number(0));
  }
}

=== FILE: query_flags.dfy ===
/**
  The per-query flags of lib/rplan.h (`QUERY_FLAGS`): seventeen named options, each one
  bit of the 32-bit `flags` / `options` word, and the name table the daemon looks
  option names up in.
 */
module QueryFlags {
  import opened Wrappers

  /** Number of query flags. */
  const COUNT: nat := 17

  /** The flag names, in declaration order; flag `i` is `1 << i`. */
  const NAMES: seq<string> := [
    "NO_MINIMIZE", "NO_THROTTLE", "NO_IPV6", "NO_IPV4", "TCP", "RESOLVED",
    "AWAIT_IPV4", "AWAIT_IPV6", "AWAIT_CUT", "SAFEMODE", "CACHED", "NO_CACHE",
    "EXPIRING", "ALLOW_LOCAL", "DNSSEC_WANT", "DNSSEC_BOGUS", "DNSSEC_INSECURE"]

  /** The flag values as the enum declares them. */
  const VALUES: seq<bv32> := [
    0x1, 0x2, 0x4, 0x8, 0x10, 0x20, 0x40, 0x80, 0x100, 0x200, 0x400, 0x800,
    0x1000, 0x2000, 0x4000, 0x8000, 0x1_0000]

  function Flag(i: nat): bv32
    requires i < COUNT
  {
    VALUES[i]
  }

  /** Every flag is `1 << i`, for `i` its position in the declaration. */
  lemma FlagIsShiftedBit(i: nat)
    requires i < COUNT
    ensures Flag(i) == (1 as bv32) << i
  {
    assert |VALUES| == COUNT;
  }

  /** The flags are non-zero and pairwise disjoint: each is a bit of its own. */
  lemma FlagsDisjoint(i: nat, j: nat)
    requires i < COUNT && j < COUNT
    ensures Flag(i) != 0
    ensures i != j ==> Flag(i) & Flag(j) == 0
  {
    FlagIsShiftedBit(i);
    FlagIsShiftedBit(j);
  }

  /** The name table holds no name twice. */
  lemma NamesDistinct()
    ensures |NAMES| == COUNT
    ensures forall i, j :: 0 <= i < j < |NAMES| ==> NAMES[i] != NAMES[j]
  {
  }

  /**
    `strcmp` against every name of the table in turn, from position `i`: the position of
    the first equal one, `None` when none is equal.
   */
  function Lookup(name: string, i: nat): (r: Option<nat>)
    requires i <= COUNT
    ensures r.None? <==> forall k :: i <= k < COUNT ==> NAMES[k] != name
    ensures r.Some? ==> i <= r.value < COUNT && NAMES[r.value] == name
    decreases COUNT - i
  {
    if i == COUNT then None
    else if NAMES[i] == name then Some(i)
    else Lookup(name, i + 1)
  }

  /** The flag a name stands for, as its bit position; the table's names are distinct, so it is the only one. */
  function Position(name: string): (r: Option<nat>)
    ensures r.None? <==> name !in NAMES
    ensures r.Some? ==> r.value < COUNT && NAMES[r.value] == name
  {
    Lookup(name, 0)
  }

  lemma PositionOfName(i: nat)
    requires i < COUNT
    ensures Position(NAMES[i]) == Some(i)
  {
    NamesDistinct();
  }
}

=== FILE: registry.dfy ===
/**
  The engine's ordered module list (daemon/engine.c): `module_find`, `engine_register`
  with its precedence splice, `engine_unregister`, and the names `register_properties`
  publishes. A module is identified by its name; the list is the pipeline order.
 */
module Registry {
  import opened Wrappers
  import opened Text

  /**
    How loading a module by name ended (`kr_module_load`, `ffimodule_register_lua`).
    `kr_error(ENOENT)` is always `NoSuchModule`; `LoadError` carries every other
    non-zero code.
   */
  datatype LoadCode = Loaded | NoSuchModule | LoadError(code: int)

  /** Error returns of `engine_register` and `engine_unregister`. */
  datatype Error =
    | NotFound              // ENOENT from engine_unregister
    | RefNotFound           // EIDRM: the reference module is not registered
    | OutOfMemory           // ENOMEM: allocating or appending the module failed
    | LoadFailed(code: LoadCode)

  datatype Status = Ok | Err(error: Error)

  /** The module list after an operation, and what the operation returned. */
  datatype Outcome = Outcome(mods: seq<string>, status: Status)

  /**
    What the outside world answers while a module is registered: whether the module
    structure could be allocated, the native loader's verdict, the Lua loader's verdict
    (consulted only when no native module exists) and whether appending to the list
    succeeded.
   */
  datatype Loader = Loader(allocOk: bool, native: LoadCode, script: LoadCode, pushOk: bool)

  /** Names are unique among registered modules. */
  predicate Unique(mods: seq<string>) {
    forall i, j :: 0 <= i < j < |mods| ==> mods[i] != mods[j]
  }

  /** `module_find`: index of the first module called `name`, or the list length. */
  function Find(mods: seq<string>, name: string): (i: nat)
    ensures i <= |mods|
    ensures i < |mods| ==> mods[i] == name
    ensures forall j :: 0 <= j < i ==> mods[j] != name
    ensures i == |mods| <==> name !in mods
  {
    if |mods| == 0 then 0
    else if mods[0] == name then 0
    else 1 + Find(mods[1..], name)
  }

  /**
    `engine_unregister`: an absent name is reported as ENOENT and changes nothing;
    otherwise exactly one module of that name leaves the list and no other does.
   */
  function Unregister(mods: seq<string>, name: string): (r: Outcome)
    ensures r.status == Ok <==> name in mods
    ensures r.status != Ok ==> r.status == Err(NotFound) && r.mods == mods
    ensures name in mods ==>
              |r.mods| == |mods| - 1 && multiset(r.mods) == multiset(mods) - multiset{name}
  {
    var i := Find(mods, name);
    if i < |mods| then
      assert mods == mods[..i] + [mods[i]] + mods[i + 1..];
      Outcome(mods[..i] + mods[i + 1..], Ok)
    else
      Outcome(mods, Err(NotFound))
  }

  /** Which of the two loaders' verdicts decides: the Lua loader only runs when no native module exists. */
  function LoadResult(ld: Loader): LoadCode {
    if ld.native == NoSuchModule then ld.script else ld.native
  }

  /** Where the precedence operator puts the module just appended to a list of length `len`. */
  function Emplacement(len: nat, precedence: string, refPos: nat): nat {
    var after := if EqualsIgnoreCase(precedence, ">") && refPos + 1 < len then refPos + 1 else len;
    if EqualsIgnoreCase(precedence, "<") then refPos else after
  }

  /**
    The `memmove` splice: when the slot `e` is not the last one, the entries from `e`
    on move one place right, over the new module at the end, which then goes into `e`.
   */
  function Splice(arr: seq<string>, e: nat): seq<string>
    requires |arr| > 0
  {
    if e + 1 < |arr| then arr[..e] + [arr[|arr| - 1]] + arr[e..|arr| - 1] else arr
  }

  /**
    `engine_register`: any module of the same name is unregistered first; then a given
    precedence with a given reference needs the reference registered (EIDRM otherwise);
    the module is loaded and appended, and finally spliced before (`<`) or after (`>`)
    the reference.
   */
  function Register(mods: seq<string>, name: string, precedence: Option<string>,
                    ref: Option<string>, ld: Loader): (r: Outcome)
    ensures r.status.Err? ==> r.mods == Unregister(mods, name).mods
    ensures r.status.Ok? ==>
              multiset(r.mods) == multiset(Unregister(mods, name).mods) + multiset{name}
  {
    var base := Unregister(mods, name).mods;
    var refPos := if precedence.Some? && ref.Some? then Find(base, ref.value) else |base|;
    if precedence.Some? && ref.Some? && refPos >= |base| then Outcome(base, Err(RefNotFound))
    else if !ld.allocOk then Outcome(base, Err(OutOfMemory))
    else if LoadResult(ld) != Loaded then Outcome(base, Err(LoadFailed(LoadResult(ld))))
    else if !ld.pushOk then Outcome(base, Err(OutOfMemory))
    else
      var arr := base + [name];
      if precedence.None? then Outcome(arr, Ok)
      else
        var e := Emplacement(|arr|, precedence.value, refPos);
        SplicePermutes(arr, e);
        Outcome(Splice(arr, e), Ok)
  }

  /** The splice only moves modules around. */
  lemma SplicePermutes(arr: seq<string>, e: nat)
    requires |arr| > 0
    ensures multiset(Splice(arr, e)) == multiset(arr)
  {
    if e + 1 < |arr| {
      var n := |arr| - 1;
      assert arr == arr[..e] + arr[e..n] + [arr[n]];
    }
  }

  // ---------------------------------------------------------------------------
  // Reference placement and properties of registration

  /**
    Where the new module is meant to end up in the list that remains after unloading
    its namesake: right after the reference for `>`, at the reference's index for `<`,
    at the end otherwise.
   */
  function IntendedSlot(base: seq<string>, precedence: Option<string>, ref: Option<string>): nat {
    if precedence.Some? && ref.Some? && ref.value in base then
      if precedence.value == ">" then Find(base, ref.value) + 1
      else if precedence.value == "<" then Find(base, ref.value)
      else |base|
    else |base|
  }

  predicate Loads(ld: Loader) {
    ld.allocOk && LoadResult(ld) == Loaded && ld.pushOk
  }

  /** The errors `engine_register` reports, in the order it checks for them. */
  lemma RegisterErrors(mods: seq<string>, name: string, precedence: Option<string>,
                       ref: Option<string>, ld: Loader)
    ensures var base := Unregister(mods, name).mods;
            var r := Register(mods, name, precedence, ref, ld);
            && (r.status == Err(RefNotFound) <==> precedence.Some? && ref.Some? && ref.value !in base)
            && (r.status == Ok <==> !(precedence.Some? && ref.Some? && ref.value !in base) && Loads(ld))
            && (r.status.Err? && r.status.error.LoadFailed? ==> r.status.error.code == LoadResult(ld))
  {
    var base := Unregister(mods, name).mods;
    if precedence.Some? && ref.Some? {
      assert Find(base, ref.value) >= |base| <==> ref.value !in base;
    }
  }

  lemma SpliceAt(base: seq<string>, name: string, e: nat)
    ensures e <= |base| ==> Splice(base + [name], e) == base[..e] + [name] + base[e..]
    ensures e >= |base| ==> Splice(base + [name], e) == base + [name]
  {
    var arr := base + [name];
    if e + 1 < |arr| {
      assert arr[..e] == base[..e];
      assert arr[e..|arr| - 1] == base[e..];
    } else if e <= |base| {
      assert base[e..] == [];
    }
  }

  /**
    A successful registration puts the module at its intended slot: right after the
    reference for `>`, at the reference's old index for `<` (shifting the reference and
    its successors right by one), at the end for any other token or no reference. All
    other modules keep their relative order and the list grows by exactly one.
   */
  lemma RegisterPlacement(mods: seq<string>, name: string, precedence: Option<string>,
                          ref: Option<string>, ld: Loader)
    requires Loads(ld)
    requires precedence.Some? && ref.Some? ==> ref.value in Unregister(mods, name).mods
    ensures var base := Unregister(mods, name).mods;
            var k := IntendedSlot(base, precedence, ref);
            var r := Register(mods, name, precedence, ref, ld);
            && r.status == Ok
            && k <= |base|
            && r.mods == base[..k] + [name] + base[k..]
  {
    var base := Unregister(mods, name).mods;
    RegisterSucceeds(mods, name, precedence, ref, ld);
    if precedence.None? {
      assert base[..|base|] == base && base[|base|..] == [];
    } else {
      SpliceAtIntended(base, name, precedence.value, ref);
    }
  }

  /** The splice puts the new module at its intended slot, whatever the token. */
  lemma SpliceAtIntended(base: seq<string>, name: string, p: string, ref: Option<string>)
    requires ref.Some? ==> ref.value in base
    ensures var refPos := if ref.Some? then Find(base, ref.value) else |base|;
            var k := IntendedSlot(base, Some(p), ref);
            && k <= |base|
            && Splice(base + [name], Emplacement(|base| + 1, p, refPos)) == base[..k] + [name] + base[k..]
  {
    if ref.None? || (p != "<" && p != ">") {
      SpliceAtEnd(base, name, p, ref);
    } else if p == "<" {
      SpliceBefore(base, name, p, ref.value);
    } else {
      SpliceAfter(base, name, p, ref.value);
    }
  }

  /** `<` puts the module at the reference's index. */
  lemma SpliceBefore(base: seq<string>, name: string, p: string, ref: string)
    requires ref in base && p == "<"
    ensures var k := IntendedSlot(base, Some(p), Some(ref));
            && k == Find(base, ref) < |base|
            && Splice(base + [name], Emplacement(|base| + 1, p, k)) == base[..k] + [name] + base[k..]
  {
    var k := Find(base, ref);
    EmplacementAt(|base| + 1, p, k);
    SpliceAt(base, name, k);
  }

  /** `>` puts the module right after the reference. */
  lemma SpliceAfter(base: seq<string>, name: string, p: string, ref: string)
    requires ref in base && p == ">"
    ensures var refPos := Find(base, ref);
            var k := IntendedSlot(base, Some(p), Some(ref));
            && k == refPos + 1 <= |base|
            && Splice(base + [name], Emplacement(|base| + 1, p, refPos)) == base[..k] + [name] + base[k..]
  {
    var refPos := Find(base, ref);
    EmplacementAt(|base| + 1, p, refPos);
    SpliceAt(base, name, refPos + 1);
  }

  /** Any other token, or no reference, leaves the module at the end. */
  lemma SpliceAtEnd(base: seq<string>, name: string, p: string, ref: Option<string>)
    requires ref.Some? ==> ref.value in base
    requires ref.None? || (p != "<" && p != ">")
    ensures var refPos := if ref.Some? then Find(base, ref.value) else |base|;
            var k := IntendedSlot(base, Some(p), ref);
            && k == |base|
            && Splice(base + [name], Emplacement(|base| + 1, p, refPos)) == base[..k] + [name] + base[k..]
  {
    var refPos := if ref.Some? then Find(base, ref.value) else |base|;
    var e := Emplacement(|base| + 1, p, refPos);
    assert e >= |base| by {
      EmplacementAt(|base| + 1, p, refPos);
    }
    SpliceAt(base, name, e);
    assert IntendedSlot(base, Some(p), ref) == |base|;
    assert base[..|base|] == base && base[|base|..] == [];
  }

  /** With the reference present and the module loading, registration succeeds with the spliced list. */
  lemma RegisterSucceeds(mods: seq<string>, name: string, precedence: Option<string>,
                         ref: Option<string>, ld: Loader)
    requires Loads(ld)
    requires precedence.Some? && ref.Some? ==> ref.value in Unregister(mods, name).mods
    ensures var base := Unregister(mods, name).mods;
            var refPos := if precedence.Some? && ref.Some? then Find(base, ref.value) else |base|;
            Register(mods, name, precedence, ref, ld)
            == Outcome(if precedence.None? then base + [name]
                       else Splice(base + [name], Emplacement(|base| + 1, precedence.value, refPos)), Ok)
  {
  }

  /** The slot `Emplacement` picks for each token: case folding never matters for `<` and `>`. */
  lemma EmplacementAt(len: nat, precedence: string, refPos: nat)
    requires refPos < len
    ensures precedence == "<" ==> Emplacement(len, precedence, refPos) == refPos
    ensures precedence == ">" ==> Emplacement(len, precedence, refPos) == refPos + 1 || Emplacement(len, precedence, refPos) == len
    ensures precedence == ">" && refPos + 1 < len ==> Emplacement(len, precedence, refPos) == refPos + 1
    ensures precedence != "<" && precedence != ">" ==> Emplacement(len, precedence, refPos) == len
  {
    EqualsIgnoreCaseSymbol(precedence, '>');
    EqualsIgnoreCaseSymbol(precedence, '<');
  }

  /**
    Registration keeps names unique: the new name ends up exactly once on success and
    not at all on failure, since its namesake is always unloaded first.
   */
  lemma RegisterKeepsNamesUnique(mods: seq<string>, name: string, precedence: Option<string>,
                                 ref: Option<string>, ld: Loader)
    requires Unique(mods)
    ensures var r := Register(mods, name, precedence, ref, ld);
            && Unique(r.mods)
            && multiset(r.mods)[name] == (if r.status == Ok then 1 else 0)
  {
    var base := Unregister(mods, name).mods;
    var r := Register(mods, name, precedence, ref, ld);
    UniqueCount(mods, name);
    assert multiset(base)[name] == 0;
    assert name !in base;
    UniqueDelete(mods, name);
    if r.status == Ok {
      assert multiset(r.mods)[name] == 1;
      forall x | x in r.mods
        ensures multiset(r.mods)[x] == 1
      {
        if x != name {
          UniqueCount(base, x);
        }
      }
      CountOneUnique(r.mods);
    }
  }

  lemma {:induction false} UniqueCount(s: seq<string>, x: string)
    requires Unique(s)
    ensures multiset(s)[x] <= 1
    ensures x in s ==> multiset(s)[x] == 1
  {
    if |s| > 0 {
      assert s == [s[0]] + s[1..];
      assert Unique(s[1..]);
      UniqueCount(s[1..], x);
      if s[0] == x {
        assert x !in s[1..];
      }
    }
  }

  lemma {:induction false} CountOneUnique(s: seq<string>)
    requires forall x :: x in s ==> multiset(s)[x] == 1
    ensures Unique(s)
  {
    if |s| > 0 {
      assert s == [s[0]] + s[1..];
      assert s[0] !in s[1..] by {
        assert multiset(s)[s[0]] == 1 + multiset(s[1..])[s[0]];
      }
      forall x | x in s[1..]
        ensures multiset(s[1..])[x] == 1
      {
        assert multiset(s)[x] == multiset([s[0]])[x] + multiset(s[1..])[x];
        if x == s[0] {
          assert false;
        }
      }
      CountOneUnique(s[1..]);
    }
  }

  lemma UniqueDelete(mods: seq<string>, name: string)
    requires Unique(mods)
    ensures Unique(Unregister(mods, name).mods)
  {
    var i := Find(mods, name);
    if i < |mods| {
      var r := mods[..i] + mods[i + 1..];
      forall a, b | 0 <= a < b < |r|
        ensures r[a] != r[b]
      {
        var a' := if a < i then a else a + 1;
        var b' := if b < i then b else b + 1;
        assert r[a] == mods[a'] && r[b] == mods[b'];
      }
    }
  }

  /**
    Naming the module itself as the reference always fails with EIDRM: its namesake is
    unloaded before the reference is looked up, and the name leaves the list.
   */
  lemma RegisterRelativeToItself(mods: seq<string>, name: string, p: string, ld: Loader)
    requires Unique(mods)
    ensures var r := Register(mods, name, Some(p), Some(name), ld);
            r.status == Err(RefNotFound) && name !in r.mods
  {
    UniqueCount(mods, name);
    UniqueDelete(mods, name);
    var base := Unregister(mods, name).mods;
    assert multiset(base)[name] == 0;
  }

  /**
    Unregistering undoes a successful registration: the name is found again, and the
    modules left are those that remained after its namesake was unloaded.
   */
  lemma RegisterThenUnregister(mods: seq<string>, name: string, precedence: Option<string>,
                               ref: Option<string>, ld: Loader)
    requires Register(mods, name, precedence, ref, ld).status == Ok
    ensures var r := Register(mods, name, precedence, ref, ld);
            var u := Unregister(r.mods, name);
            && u.status == Ok
            && multiset(u.mods) == multiset(Unregister(mods, name).mods)
  {
    var r := Register(mods, name, precedence, ref, ld);
    assert multiset(r.mods)[name] > 0;
    assert name in r.mods;
  }

  /** Registering a module with no precedence, as `init_resolver` does, given a loader that succeeds. */
  function Append(mods: seq<string>, name: string): seq<string> {
    Register(mods, name, None, None, Loader(true, Loaded, Loaded, true)).mods
  }

  /** `init_resolver` installs the built-in layers in the order iterate, validate, rrcache, pktcache. */
  lemma BuiltinPipeline()
    ensures Append(Append(Append(Append([], "iterate"), "validate"), "rrcache"), "pktcache")
            == ["iterate", "validate", "rrcache", "pktcache"]
  {
    AppendAbsent([], "iterate");
    var m1 := Append([], "iterate");
    assert m1 == ["iterate"];
    AppendAbsent(m1, "validate");
    var m2 := Append(m1, "validate");
    assert m2 == ["iterate", "validate"];
    AppendAbsent(m2, "rrcache");
    var m3 := Append(m2, "rrcache");
    assert m3 == ["iterate", "validate", "rrcache"];
    AppendAbsent(m3, "pktcache");
  }

  lemma AppendAbsent(mods: seq<string>, name: string)
    requires name !in mods
    ensures Append(mods, name) == mods + [name]
  {
    RegisterPlacement(mods, name, None, None, Loader(true, Loaded, Loaded, true));
    assert mods[..|mods|] == mods;
  }

  /** Registering B before A yields [B, A]; unregistering A then leaves [B]. */
  lemma BeforeThenUnregister(ld: Loader)
    requires Loads(ld)
    ensures var m1 := Register([], "A", None, None, ld).mods;
            var m2 := Register(m1, "B", Some("<"), Some("A"), ld).mods;
            m1 == ["A"] && m2 == ["B", "A"] && Unregister(m2, "A") == Outcome(["B"], Ok)
  {
    RegisterFirst(ld);
    RegisterBefore(ld);
    assert Find(["B", "A"], "A") == 1;
  }

  lemma RegisterFirst(ld: Loader)
    requires Loads(ld)
    ensures Register([], "A", None, None, ld).mods == ["A"]
  {
    RegisterPlacement([], "A", None, None, ld);
  }

  lemma RegisterBefore(ld: Loader)
    requires Loads(ld)
    ensures Register(["A"], "B", Some("<"), Some("A"), ld).mods == ["B", "A"]
  {
    var m1 := ["A"];
    assert Unregister(m1, "B").mods == m1;
    assert Find(m1, "A") == 0;
    RegisterPlacement(m1, "B", Some("<"), Some("A"), ld);
    assert IntendedSlot(m1, Some("<"), Some("A")) == 0;
  }

  // ---------------------------------------------------------------------------
  // Names published into Lua by register_properties

  /** One entry of a module's property table; the table ends at the first entry without a name. */
  datatype Prop = Prop(name: Option<string>, hasCallback: bool)

  /** Index of the terminating entry, or the table length when there is none. */
  function PropsEnd(props: seq<Prop>): (n: nat)
    ensures n <= |props|
    ensures forall i :: 0 <= i < n ==> props[i].name.Some?
    ensures n < |props| ==> props[n].name.None?
  {
    if |props| == 0 || props[0].name.None? then 0 else 1 + PropsEnd(props[1..])
  }

  function PropNames(props: seq<Prop>): seq<string> {
    if |props| == 0 || props[0].name.None? then []
    else (if props[0].hasCallback then [props[0].name.value] else []) + PropNames(props[1..])
  }

  /**
    `register_properties`, called only when the module has a configuration entry point
    or a property table: the names bound in the module's Lua table, `config` first.
   */
  function Published(hasConfig: bool, props: Option<seq<Prop>>): (r: Option<seq<string>>)
    ensures r.Some? <==> hasConfig || props.Some?
    ensures r.Some? && hasConfig ==> |r.value| > 0 && r.value[0] == "config"
  {
    if !hasConfig && props.None? then None
    else Some((if hasConfig then ["config"] else []) + (if props.Some? then PropNames(props.value) else []))
  }

  /** A property is published exactly when it has a callback and comes before the table's terminator. */
  lemma {:induction false} PropNamesExactly(props: seq<Prop>, n: string)
    ensures n in PropNames(props) <==>
              exists i :: 0 <= i < PropsEnd(props) && props[i].name == Some(n) && props[i].hasCallback
  {
    if |props| > 0 && props[0].name.Some? {
      PropNamesExactly(props[1..], n);
      var tail := props[1..];
      if exists i :: 0 <= i < PropsEnd(tail) && tail[i].name == Some(n) && tail[i].hasCallback {
        var i :| 0 <= i < PropsEnd(tail) && tail[i].name == Some(n) && tail[i].hasCallback;
        assert props[i + 1] == tail[i];
      }
      if exists i :: 0 <= i < PropsEnd(props) && props[i].name == Some(n) && props[i].hasCallback {
        var i :| 0 <= i < PropsEnd(props) && props[i].name == Some(n) && props[i].hasCallback;
        if i > 0 {
          assert tail[i - 1] == props[i];
        }
      }
    }
  }
}

=== FILE: rplan.dfy ===
/**
  The resolution plan of lib/rplan.h: the queries still to be resolved (`pending`, whose
  front is the top of the plan) and those already resolved, as promised by the doc
  comments of `kr_rplan_init`, `kr_rplan_empty`, `kr_rplan_push` and `kr_rplan_pop`.
  Every query gets an identity when it is pushed; the plan counts how many it handed out.
 */
module Rplan {
  import opened Wrappers
  import opened Text

  /** A query: its identity, its parent's identity, the name, class and type asked for, and its flag bits. */
  datatype Query = Query(id: nat, parent: Option<nat>, sname: seq<byte>, sclass: int, stype: int, flags: set<nat>)

  datatype Plan = Plan(pending: seq<Query>, resolved: seq<Query>, pushed: nat)

  datatype PopError = NotPending

  function Ids(qs: seq<Query>): (ids: seq<nat>)
    ensures |ids| == |qs|
    ensures forall i :: 0 <= i < |qs| ==> ids[i] == qs[i].id
  {
    seq(|qs|, i requires 0 <= i < |qs| => qs[i].id)
  }

  /** The identities `0 .. n-1`, each once. */
  function Range(n: nat): (r: seq<nat>)
    ensures |r| == n
    ensures forall i :: 0 <= i < n ==> r[i] == i
  {
    seq(n, i => i)
  }

  /** Every query ever pushed is in exactly one of the two lists, exactly once. */
  predicate Valid(p: Plan) {
    multiset(Ids(p.pending + p.resolved)) == multiset(Range(p.pushed))
  }

  /** `kr_rplan_init`: nothing pending, nothing resolved. */
  function Init(): (p: Plan)
    ensures Valid(p) && Empty(p)
  {
    Plan([], [], 0)
  }

  /** `kr_rplan_empty`: no query is pending. */
  predicate Empty(p: Plan) {
    |p.pending| == 0
  }

  lemma IdsAppend(a: seq<Query>, b: seq<Query>)
    ensures Ids(a + b) == Ids(a) + Ids(b)
  {
  }

  lemma ValidCount(p: Plan)
    requires Valid(p)
    ensures |p.pending| + |p.resolved| == p.pushed
  {
    assert |multiset(Ids(p.pending + p.resolved))| == |multiset(Range(p.pushed))|;
  }

  /** A valid plan never holds an identity it has not handed out. */
  lemma ValidIdsBelow(p: Plan, q: Query)
    requires Valid(p) && q in p.pending + p.resolved
    ensures q.id < p.pushed
  {
    var all := p.pending + p.resolved;
    var k :| 0 <= k < |all| && all[k] == q;
    assert q.id in multiset(Ids(all));
    assert q.id in multiset(Range(p.pushed));
    var j :| 0 <= j < p.pushed && Range(p.pushed)[j] == q.id;
  }

  /**
    `kr_rplan_push`: a new query, with a fresh identity, goes on top of the plan, ahead
    of every query already pending; `allocOk` is whether its memory was obtained (NULL
    is returned otherwise, and the plan is unchanged).
   */
  function Push(p: Plan, parent: Option<Query>, name: seq<byte>, cls: int, typ: int, allocOk: bool): (r: Option<Plan>)
    ensures r.Some? <==> allocOk
    ensures r.Some? ==> |r.value.pending| == |p.pending| + 1 && r.value.pending[1..] == p.pending
    ensures r.Some? ==> r.value.resolved == p.resolved
  {
    if !allocOk then None
    else
      var q := Query(p.pushed, if parent.Some? then Some(parent.value.id) else None, name, cls, typ, {});
      Some(Plan([q] + p.pending, p.resolved, p.pushed + 1))
  }

  /** The pushed query is new: it is none of the queries the plan held before. */
  lemma PushFresh(p: Plan, parent: Option<Query>, name: seq<byte>, cls: int, typ: int)
    requires Valid(p)
    ensures var r := Push(p, parent, name, cls, typ, true);
            && Valid(r.value)
            && var top := r.value.pending[0];
            && top.sname == name && top.sclass == cls && top.stype == typ
            && (parent.Some? <==> top.parent.Some?)
            && (parent.Some? ==> top.parent.value == parent.value.id)
            && forall q :: q in p.pending + p.resolved ==> q.id != top.id
  {
    var r := Push(p, parent, name, cls, typ, true).value;
    var top := r.pending[0];
    forall q | q in p.pending + p.resolved
      ensures q.id != top.id
    {
      ValidIdsBelow(p, q);
    }
    assert r.pending + r.resolved == [top] + (p.pending + p.resolved);
    IdsAppend([top], p.pending + p.resolved);
    assert Range(p.pushed + 1) == Range(p.pushed) + [p.pushed];
  }

  /** Position of the pending query with this identity, `|pending|` when there is none. */
  function PendingIndex(pending: seq<Query>, id: nat): (i: nat)
    ensures i <= |pending|
    ensures i < |pending| ==> pending[i].id == id
    ensures i == |pending| <==> forall j :: 0 <= j < |pending| ==> pending[j].id != id
  {
    if |pending| == 0 then 0
    else if pending[0].id == id then 0
    else 1 + PendingIndex(pending[1..], id)
  }

  /**
    `kr_rplan_pop`: the query leaves the pending list and is appended to the resolved
    one (it is not discarded); a query that is not pending is an error and changes nothing.
   */
  function Pop(p: Plan, q: Query): (r: Result<Plan, PopError>)
    ensures r.Failure? <==> forall j :: 0 <= j < |p.pending| ==> p.pending[j].id != q.id
    ensures r.Success? ==> |r.value.pending| == |p.pending| - 1 && r.value.pushed == p.pushed
    ensures r.Success? ==> |r.value.resolved| == |p.resolved| + 1 && r.value.resolved[..|p.resolved|] == p.resolved
    ensures r.Success? ==> r.value.resolved[|p.resolved|].id == q.id
  {
    var i := PendingIndex(p.pending, q.id);
    if i == |p.pending| then Failure(NotPending)
    else Success(Plan(p.pending[..i] + p.pending[i + 1..], p.resolved + [p.pending[i]], p.pushed))
  }

  /** Popping keeps every query: the two lists together hold the same queries as before. */
  lemma PopKeepsQueries(p: Plan, q: Query)
    requires Pop(p, q).Success?
    ensures var r := Pop(p, q).value;
            multiset(r.pending + r.resolved) == multiset(p.pending + p.resolved)
  {
    var i := PendingIndex(p.pending, q.id);
    var r := Pop(p, q).value;
    assert p.pending == p.pending[..i] + [p.pending[i]] + p.pending[i + 1..];
  }

  /** Popping keeps the plan valid. */
  lemma PopValid(p: Plan, q: Query)
    requires Valid(p) && Pop(p, q).Success?
    ensures Valid(Pop(p, q).value)
  {
    var i := PendingIndex(p.pending, q.id);
    var r := Pop(p, q).value;
    var left, mid, right := p.pending[..i], [p.pending[i]], p.pending[i + 1..];
    assert p.pending == left + mid + right;
    assert r.pending + r.resolved == left + right + (p.resolved + mid);
    IdsAppend(left + right, p.resolved + mid);
    IdsAppend(left, right);
    IdsAppend(p.resolved, mid);
    IdsAppend(left + mid + right, p.resolved);
    IdsAppend(left + mid, right);
    IdsAppend(left, mid);
  }

  /**
    The plan is empty again exactly when every query ever pushed has been resolved:
    a freshly initialised plan is empty, and so is one whose pushes were all popped.
   */
  lemma EmptyIffAllResolved(p: Plan)
    requires Valid(p)
    ensures Empty(p) <==> |p.resolved| == p.pushed
  {
    ValidCount(p);
  }

  /** Pushing a query and popping the top again restores the pending list and resolves that query. */
  lemma PushThenPopTop(p: Plan, parent: Option<Query>, name: seq<byte>, cls: int, typ: int)
    requires Valid(p)
    ensures var r := Push(p, parent, name, cls, typ, true).value;
            var s := Pop(r, r.pending[0]);
            && s.Success?
            && s.value.pending == p.pending
            && s.value.resolved == p.resolved + [r.pending[0]]
  {
    var r := Push(p, parent, name, cls, typ, true).value;
    assert PendingIndex(r.pending, r.pending[0].id) == 0;
    assert r.pending[1..] == p.pending;
  }
}

=== FILE: text.dfy ===
/**
  Character and C-string helpers used by the daemon: decimal rendering of numbers,
  the C library's `atoi`, `strlen` and `strcasecmp`.
 */
module Text {

  /** An octet, as read from or written to a pipe or a socket. */
  type byte = x: int | 0 <= x < 256

  const NUL: byte := 0
  const NEWLINE: byte := 10

  predicate IsDigit(c: char) {
    '0' <= c <= '9'
  }

  predicate AllDigits(s: string) {
    forall i :: 0 <= i < |s| ==> IsDigit(s[i])
  }

  /** The white-space characters skipped by `atoi` (C's `isspace` in the "C" locale). */
  predicate IsSpace(c: char) {
    c == ' ' || c == '\t' || c == '\n' || c == '\r' || c == 11 as char || c == 12 as char
  }

  function DigitValue(c: char): (d: nat)
    requires IsDigit(c)
    ensures d < 10
  {
    (c as int - '0' as int) as nat
  }

  function DigitChar(d: nat): (c: char)
    requires d < 10
    ensures IsDigit(c) && DigitValue(c) == d
  {
    ('0' as int + d) as char
  }

  /** Decimal digits of `n`, most significant first, without leading zeros. */
  function NatToDecimal(n: nat): (s: string)
    ensures |s| > 0 && AllDigits(s)
    ensures s[0] == '0' ==> n == 0
  {
    if n < 10 then [DigitChar(n)] else NatToDecimal(n / 10) + [DigitChar(n % 10)]
  }

  /** Decimal rendering of an integer, as `lua_tostring` gives for an integral number. */
  function IntToDecimal(n: int): string {
    if n < 0 then "-" + NatToDecimal(-n) else NatToDecimal(n)
  }

  /** Value of a string of decimal digits, read left to right. */
  function DigitsValue(s: string): nat
    requires AllDigits(s)
  {
    if |s| == 0 then 0 else DigitsValue(s[..|s| - 1]) * 10 + DigitValue(s[|s| - 1])
  }

  /** Longest prefix of `s` made only of digits. */
  function DigitPrefix(s: string): (p: string)
    ensures AllDigits(p) && p <= s
    ensures |p| < |s| ==> !IsDigit(s[|p|])
  {
    if |s| == 0 || !IsDigit(s[0]) then [] else [s[0]] + DigitPrefix(s[1..])
  }

  function SkipSpaces(s: string): (t: string)
    ensures |t| <= |s| && t == s[|s| - |t|..]
    ensures |t| > 0 ==> !IsSpace(t[0])
  {
    if |s| > 0 && IsSpace(s[0]) then SkipSpaces(s[1..]) else s
  }

  /**
    C's `atoi`: leading white space, an optional sign, then as many digits as follow.
    Text that does not start with a number yields 0. (The overflow of a C `int`, which
    is undefined behaviour in C, is not modelled: the result is unbounded.)
   */
  function Atoi(s: string): int {
    var t := SkipSpaces(s);
    if |t| > 0 && t[0] == '-' then 0 - DigitsValue(DigitPrefix(t[1..]))
    else if |t| > 0 && t[0] == '+' then DigitsValue(DigitPrefix(t[1..]))
    else DigitsValue(DigitPrefix(t))
  }

  /**
    A string Lua's number coercion accepts, restricted to integers: optional blanks, an
    optional sign, at least one digit, then only blanks.
   */
  predicate IsIntegerNumeral(s: string) {
    var t := SkipSpaces(s);
    var u := if |t| > 0 && (t[0] == '-' || t[0] == '+') then t[1..] else t;
    var d := DigitPrefix(u);
    |d| > 0 && forall i :: |d| <= i < |u| ==> IsSpace(u[i])
  }

  lemma DigitPrefixOfDigits(s: string)
    requires AllDigits(s)
    ensures DigitPrefix(s) == s
  {
    if |s| > 0 {
      DigitPrefixOfDigits(s[1..]);
    }
  }

  lemma {:induction false} DigitsValueOfDecimal(n: nat)
    ensures DigitsValue(NatToDecimal(n)) == n
  {
    if n >= 10 {
      var s := NatToDecimal(n);
      assert s[..|s| - 1] == NatToDecimal(n / 10);
      DigitsValueOfDecimal(n / 10);
    }
  }

  lemma AtoiOfDigits(d: string)
    requires |d| > 0 && AllDigits(d)
    ensures Atoi(d) == DigitsValue(d)
  {
    assert IsDigit(d[0]) && !IsSpace(d[0]);
    assert SkipSpaces(d) == d;
    DigitPrefixOfDigits(d);
  }

  lemma AtoiOfNegatedDigits(d: string)
    requires |d| > 0 && AllDigits(d)
    ensures Atoi("-" + d) == 0 - DigitsValue(d)
  {
    var m := "-" + d;
    assert !IsSpace(m[0]);
    assert SkipSpaces(m) == m;
    assert m[1..] == d;
    DigitPrefixOfDigits(d);
  }

  lemma AtoiOfNatDecimal(n: nat)
    ensures Atoi(NatToDecimal(n)) == n
    ensures Atoi("-" + NatToDecimal(n)) == 0 - n
  {
    DigitsValueOfDecimal(n);
    AtoiOfDigits(NatToDecimal(n));
    AtoiOfNegatedDigits(NatToDecimal(n));
  }

  /** `atoi` reads back every integer rendered in decimal. */
  lemma AtoiOfDecimal(n: int)
    ensures Atoi(IntToDecimal(n)) == n
  {
    if n < 0 {
      var m: nat := -n;
      assert IntToDecimal(n) == "-" + NatToDecimal(m);
      AtoiOfNatDecimal(m);
      assert 0 - m == n;
    } else {
      assert IntToDecimal(n) == NatToDecimal(n);
      AtoiOfNatDecimal(n);
    }
  }

  /** Position of the first `x` in `s`, `|s|` when there is none (`strchr`, `strlen`). */
  function IndexOf<T(==)>(s: seq<T>, x: T): (n: nat)
    ensures n <= |s|
    ensures forall i :: 0 <= i < n ==> s[i] != x
    ensures n < |s| ==> s[n] == x
  {
    if |s| == 0 || s[0] == x then 0 else 1 + IndexOf(s[1..], x)
  }

  /** The part of `s` before the first `x`: all of `s` when there is none. */
  function UpTo<T(==)>(s: seq<T>, x: T): (t: seq<T>)
    ensures x !in t && t <= s
    ensures |t| < |s| ==> s[|t|] == x
  {
    s[..IndexOf(s, x)]
  }

  /** `strlen`: the number of bytes before the first NUL (all of them when there is none). */
  function CStrLen(s: seq<byte>): (n: nat)
    ensures n <= |s|
    ensures forall i :: 0 <= i < n ==> s[i] != NUL
    ensures n < |s| ==> s[n] == NUL
  {
    IndexOf(s, NUL)
  }

  /** The C string a byte buffer holds: its bytes up to the first NUL. */
  function CString(s: seq<byte>): (t: seq<byte>)
    ensures NUL !in t && t <= s && |t| == CStrLen(s)
  {
    UpTo(s, NUL)
  }

  /** Bytes taken as text, one character per byte, as `lua_pushlstring` copies them. */
  function BytesText(b: seq<byte>): (s: string)
    ensures |s| == |b| && forall i :: 0 <= i < |b| ==> s[i] as int == b[i]
  {
    seq(|b|, i requires 0 <= i < |b| => b[i] as char)
  }

  /** ASCII lower-casing, as `tolower` in the "C" locale. */
  function Lower(c: char): char {
    if 'A' <= c <= 'Z' then (c as int + 32) as char else c
  }

  /** `strcasecmp(a, b) == 0`. */
  predicate EqualsIgnoreCase(a: string, b: string) {
    |a| == |b| && forall i :: 0 <= i < |a| ==> Lower(a[i]) == Lower(b[i])
  }

  /** Folding case only matters for letters: a token without letters matches itself alone. */
  lemma EqualsIgnoreCaseSymbol(a: string, c: char)
    requires !('A' <= c <= 'Z') && !('a' <= c <= 'z')
    ensures EqualsIgnoreCase(a, [c]) <==> a == [c]
  {
    if EqualsIgnoreCase(a, [c]) {
      assert Lower(a[0]) == c;
      assert a[0] == c;
    }
  }
}

=== FILE: wrappers.dfy ===
/** Failure-carrying wrappers shared by the whole model. */
module Wrappers {

  /** A value that may be absent: a C pointer that may be NULL. */
  datatype Option<+T> = None | Some(value: T)

  /** The outcome of an operation that either yields a value or fails with an error. */
  datatype Result<+R, +E> = Success(value: R) | Failure(error: E)
}
